=== FILE: README.md ===
# UMI-aware duplicate sets, UMI metrics and WGS depth accounting

This project models three pieces of Picard's integer bookkeeping in Dafny and proves
properties of them.

- **UMI-aware duplicate-set iterator** (`UmiAwareDuplicateSetIterator`): a pull iterator
  over an upstream source of duplicate sets. When its buffer is empty, `next` takes exactly
  one upstream set, hands it to a clusterer (`UmiGraph`, an uninterpreted function here),
  and buffers the sub-sets it returns. While buffering it updates the UMI length, the
  base-error and base-total counters, the observed and inferred UMI histograms (multisets),
  and the two duplicate-set counters. `close` copies these into the metrics. The mutable
  object becomes an immutable state value threaded through `HasNext`, `Next`, `Process` and
  `Close`. Hamming distance and the integer collision neighbourhood
  Z = Σ_{k≤d} C(L,k)·3^k are modelled on their own. `Process` and `Close` return a failure
  where the Java code throws: Guava's `LongMath.binomial` when the edit distance exceeds
  the UMI length, and `gini` when no UMI was seen.
- **`UmiMetrics`**: the integer counters, the zero-initialised record, the frame of
  `computeMetrics`, and the two histogram setter/getter pairs. The Phred estimate is kept
  symbolically as the ratio it is computed from.
- **`CollectWgsMetrics.WgsMetricsCollector`**: the per-locus scan of `addInfo`, the three
  depth/quality arrays with their exclusion counters (as `seq<nat>` and `nat`), the
  sequential fold over loci, `getHistogram`, the depth folding of `calculateDerivedFields`,
  and the histogram-consistency check at the end of `doWork`.

Files:

| file | module | contents |
|---|---|---|
| wrappers.dfy | `Wrappers` | `Option`, `Result`, `Outcome` |
| sums.dfy | `Sums` | sums and weighted sums of count arrays |
| hamming.dfy | `Hamming` | `hammingDistance` |
| collision.dfy | `CollisionModel` | the collision neighbourhood Z |
| umi_metrics.dfy | `UmiMetricsRecord` | the `UmiMetrics` record |
| umi_iterator.dfy | `UmiIterator` | the iterator: `process`, `hasNext`, `next`, `close` |
| umi_run.dfy | `UmiRun` | draining the iterator and a whole run to `close` |
| wgs_locus.dfy | `WgsLocus` | the loop of `addInfo` over one locus |
| wgs_collector.dfy | `WgsCollector` | the collector, `addInfo`, the `doWork` check |
| wgs_metrics.dfy | `WgsHistograms` | `getHistogram` and the depth folding |

## Model

| member | source | states |
|---|---|---|
| Hamming.Distance | src/main/java/picard/sam/markduplicates/UmiAwareDuplicateSetIterator.java:222-234 | the comparison fails exactly when the two UMIs differ in length |
| Hamming.MismatchesCountsPositions | src/main/java/picard/sam/markduplicates/UmiAwareDuplicateSetIterator.java:227-233 | the mismatch count over the first k characters is the number of positions below k at which the strings differ |
| Hamming.MismatchesBound | src/main/java/picard/sam/markduplicates/UmiAwareDuplicateSetIterator.java:227-233 | the distance never exceeds the UMI length |
| Hamming.MismatchesZeroIffEqual | src/main/java/picard/sam/markduplicates/UmiAwareDuplicateSetIterator.java:227-233 | the distance is 0 if and only if the two UMIs are equal |
| Hamming.MismatchesSymmetric | src/main/java/picard/sam/markduplicates/UmiAwareDuplicateSetIterator.java:227-233 | swapping the arguments does not change the distance |
| Hamming.DistanceProperties | src/main/java/picard/sam/markduplicates/UmiAwareDuplicateSetIterator.java:222-234 | fails iff the lengths differ; otherwise the result is the number of differing positions, is at most the length, is 0 iff the strings are equal, and is symmetric |
| Hamming.DistanceExamples | src/main/java/picard/sam/markduplicates/UmiAwareDuplicateSetIterator.java:222-234 | equal UMIs are at distance 0, one substitution gives 1, unequal lengths fail |
| CollisionModel.ExactMatchNeighbourhood | src/main/java/picard/sam/markduplicates/UmiAwareDuplicateSetIterator.java:193-196 | with edit distance 0, Z is 1 |
| CollisionModel.NeighbourhoodMonotone | src/main/java/picard/sam/markduplicates/UmiAwareDuplicateSetIterator.java:193-196 | Z does not decrease as the edit distance grows |
| CollisionModel.EmptyUmiNeighbourhood | src/main/java/picard/sam/markduplicates/UmiAwareDuplicateSetIterator.java:112-115 | the unchecked sum Z at UMI length 0 is 1 for any non-negative distance and 0 for a negative one; the loop as written takes `LongMath.binomial(0, 1)` for a distance of 1 or more, so its checked form CollisionModel.CheckedNeighbourhood fails there |
| CollisionModel.NeighbourhoodStep | src/main/java/picard/sam/markduplicates/UmiAwareDuplicateSetIterator.java:193-196 | Z for length L+1 is Z for length L plus three times Z for length L at distance d-1 |
| CollisionModel.NeighbourhoodBound | src/main/java/picard/sam/markduplicates/UmiAwareDuplicateSetIterator.java:112-115 | Z never exceeds 4^L, the number of UMIs of length L, and equals it once d reaches L |
| CollisionModel.CheckedBinomial | src/main/java/picard/sam/markduplicates/UmiAwareDuplicateSetIterator.java:195 | Guava's `LongMath.binomial(n, k)`: it fails iff k > n, and otherwise returns C(n, k), which is positive |
| CollisionModel.CheckedNeighbourhood | src/main/java/picard/sam/markduplicates/UmiAwareDuplicateSetIterator.java:193-196 | the loop of checked binomials: it fails iff the edit distance exceeds the UMI length (at k = UMI_LENGTH + 1), and otherwise returns the exact sum Z |
| CollisionModel.BinomialPositive | src/main/java/picard/sam/markduplicates/UmiAwareDuplicateSetIterator.java:195 | C(n, k) is positive whenever k ≤ n, so every term the loop adds is positive |
| UmiMetricsRecord.NewUmiMetrics | src/main/java/picard/sam/UmiMetrics.java:38-56 | a fresh record has all six counters at zero and both histogram references unset |
| UmiMetricsRecord.ComputeMetrics | src/main/java/picard/sam/UmiMetrics.java:77-79 | only the estimated base quality changes, and it becomes the Phred value of errors over bases; every counter and both histograms stay unchanged |
| UmiMetricsRecord.SetDuplicateSetsBrokenByUmi | src/main/java/picard/sam/UmiMetrics.java:81-91 | the getter then returns the stored histogram; the counters, the estimate and the other histogram stay unchanged |
| UmiMetricsRecord.SetEffectiveUmiLengthDistribution | src/main/java/picard/sam/UmiMetrics.java:85-95 | the getter then returns the stored histogram; the counters, the estimate and the other histogram stay unchanged |
| UmiMetricsRecord.SetterGetterRoundTrip | src/main/java/picard/sam/UmiMetrics.java:81-95 | each getter returns what its setter last stored, even after the other setter and `computeMetrics` have run |
| UmiIterator.NewIterator | src/main/java/picard/sam/markduplicates/UmiAwareDuplicateSetIterator.java:61-93 | a new iterator is open, has an empty buffer, wraps the given upstream, which is not yet closed, stores the given edit distance and metrics, has seen no first read yet, and has zero set counters and empty histograms |
| UmiIterator.AccumulateReads | src/main/java/picard/sam/markduplicates/UmiAwareDuplicateSetIterator.java:170-185 | the per-read loop succeeds iff every UMI has the inferred UMI's length; on success OBSERVED_BASE_ERRORS grows by exactly the summed Hamming distance of the records' UMIs to the inferred UMI, each observed UMI joins the observed histogram and one copy of the inferred UMI per UMI-bearing read joins the inferred one, and the set counters are left alone |
| UmiIterator.ReadStep | src/main/java/picard/sam/markduplicates/UmiAwareDuplicateSetIterator.java:171-184 | one record: it fails iff it carries a UMI whose length differs from the inferred UMI's; a record without a UMI changes nothing; otherwise UMI_LENGTH is set by the first UMI ever seen and kept afterwards, OBSERVED_BASE_ERRORS grows by the record's Hamming distance, TOTAL_UMI_BASES_OBSERVED by UMI_LENGTH, and each histogram by one count |
| UmiIterator.AccumulateClusters | src/main/java/picard/sam/markduplicates/UmiAwareDuplicateSetIterator.java:164-189 | the loop over sub-sets succeeds iff every UMI of every sub-set has the length of that sub-set's inferred UMI; on success DUPLICATE_SETS_WITH_UMI grows by one per sub-set, whether or not it has UMI-bearing reads, both histograms grow by the sub-sets' reads, OBSERVED_BASE_ERRORS grows by each sub-set's summed Hamming distance to its own inferred UMI, and UMI_LENGTH is the one fixed by the first UMI ever seen |
| UmiIterator.Process | src/main/java/picard/sam/markduplicates/UmiAwareDuplicateSetIterator.java:153-203 | fails with the re-entrancy error iff the buffer is non-empty; otherwise fails with the length error iff some UMI's length differs from its sub-set's inferred UMI's, and else with the binomial error (n = UMI_LENGTH, k = UMI_LENGTH + 1) iff the edit distance exceeds the UMI length reached; on success it buffers exactly the clusterer's output, counts the upstream set once without UMI and each sub-set once with UMI, adds the reads' UMIs to the histograms and their summed Hamming distances to OBSERVED_BASE_ERRORS |
| UmiIterator.CollisionNeighbourhood | src/main/java/picard/sam/markduplicates/UmiAwareDuplicateSetIterator.java:193-196 | the Z that `process` and `close` compute from the state's UMI length: it fails iff the edit distance exceeds the UMI length; otherwise it is the sum of C(L, k)·3^k for k up to the edit distance, 1 at edit distance 0, at most 4^UMI_LENGTH, and exactly 4^UMI_LENGTH when the edit distance equals the UMI length |
| UmiIterator.HasNext | src/main/java/picard/sam/markduplicates/UmiAwareDuplicateSetIterator.java:126-137 | true iff the iterator is open and the buffer or upstream has more; answering false leaves the iterator closed; buffer, upstream and counters are untouched |
| UmiIterator.Next | src/main/java/picard/sam/markduplicates/UmiAwareDuplicateSetIterator.java:140-145 | succeeds iff the buffer is non-empty, or the next upstream set clusters into at least one sub-set whose UMIs have their inferred UMI's length and the edit distance is within the UMI length reached; each failure names its cause; on success the emitted sub-set followed by what is still pending is what was pending before, and the upstream is consumed by exactly one set and only when the buffer was empty |
| UmiIterator.Close | src/main/java/picard/sam/markduplicates/UmiAwareDuplicateSetIterator.java:96-123 | fails iff the edit distance exceeds UMI_LENGTH (the binomial error) or no UMI was seen (the empty-histogram error of `gini`), the binomial error taking precedence; on success it closes the iterator and the upstream so `hasNext` answers false, copies both set counters into the metrics unchanged, keeps the error and base counters and sets the estimate from them |
| UmiIterator.FirstUmiIffSomeUmi | src/main/java/picard/sam/markduplicates/UmiAwareDuplicateSetIterator.java:173-177 | a first UMI-bearing read exists exactly when some read carries a UMI, and its UMI is among the observed ones |
| UmiIterator.ReadLengthAccounting | src/main/java/picard/sam/markduplicates/UmiAwareDuplicateSetIterator.java:170-185 | UMI_LENGTH is taken from the first UMI-bearing read ever seen and never changes afterwards; only the three per-read counters are written; reads without a UMI change nothing |
| UmiIterator.ReadBaseTotal | src/main/java/picard/sam/markduplicates/UmiAwareDuplicateSetIterator.java:180 | TOTAL_UMI_BASES_OBSERVED grows by UMI_LENGTH for every UMI-bearing read |
| UmiIterator.ReadErrorsBounded | src/main/java/picard/sam/markduplicates/UmiAwareDuplicateSetIterator.java:179 | OBSERVED_BASE_ERRORS grows by exactly the summed Hamming distance of the records' UMIs to the inferred UMI, and when every UMI has length UMI_LENGTH that sum is at most UMI_LENGTH per UMI-bearing read |
| UmiIterator.ObservedErrorsBound | src/main/java/picard/sam/markduplicates/UmiAwareDuplicateSetIterator.java:179 | when every UMI has length n, the summed Hamming distance of a sub-set's UMIs to the inferred UMI is at most n per UMI-bearing read |
| UmiIterator.ObservedErrorsZero | src/main/java/picard/sam/markduplicates/UmiAwareDuplicateSetIterator.java:179 | when every UMI has the inferred UMI's length, a sub-set adds no error exactly when every UMI it carries is the inferred UMI |
| UmiIterator.ClusterErrorsBound | src/main/java/picard/sam/markduplicates/UmiAwareDuplicateSetIterator.java:164-189 | when every UMI of every sub-set has length n, the summed Hamming distances over all sub-sets are at most n per observed UMI |
| UmiIterator.ReadBaseAccounting | src/main/java/picard/sam/markduplicates/UmiAwareDuplicateSetIterator.java:179-180 | bases grow by UMI_LENGTH per UMI-bearing read and errors never decrease; when all UMIs have length UMI_LENGTH the errors added never exceed the bases added |
| UmiIterator.AccumulateReadsConsistent | src/main/java/picard/sam/markduplicates/UmiAwareDuplicateSetIterator.java:170-185 | the per-read loop keeps the two histograms equally large and the base total equal to UMI_LENGTH times the number of UMI-bearing reads |
| UmiIterator.ConsistentAfterReads | src/main/java/picard/sam/markduplicates/UmiAwareDuplicateSetIterator.java:174-183 | adding k UMI-bearing reads of length UMI_LENGTH to both histograms and to the base total keeps that bookkeeping |
| UmiIterator.AccumulateClustersConsistent | src/main/java/picard/sam/markduplicates/UmiAwareDuplicateSetIterator.java:164-189 | the per-sub-set loop keeps the same bookkeeping |
| UmiIterator.NextConsistent | src/main/java/picard/sam/markduplicates/UmiAwareDuplicateSetIterator.java:140-145 | a successful `next` keeps the same bookkeeping |
| UmiIterator.HistogramTotalsAgree | src/main/java/picard/sam/markduplicates/UmiAwareDuplicateSetIterator.java:182-183 | for any sub-sets, the observed and inferred histograms receive the same number of counts |
| UmiIterator.ClusterUmisAppend | src/main/java/picard/sam/markduplicates/UmiAwareDuplicateSetIterator.java:164-189 | the UMIs and the Hamming-distance total counted for two runs of sub-sets are the sums of those counted for each |
| UmiIterator.DistinctAtMostCount | src/main/java/picard/sam/markduplicates/UmiAwareDuplicateSetIterator.java:100-101 | a histogram has at most as many distinct keys as counts, and none exactly when it is empty |
| UmiIterator.CloseUniqueCounts | src/main/java/picard/sam/markduplicates/UmiAwareDuplicateSetIterator.java:100-101 | after a successful `close`, OBSERVED_UNIQUE_UMIS and INFERRED_UNIQUE_UMIS are the distinct keys of the two histograms; each is at least 1 and at most the number of UMI-bearing reads |
| UmiIterator.CloseIdempotent | src/main/java/picard/sam/markduplicates/UmiAwareDuplicateSetIterator.java:96-123 | closing a successfully closed iterator again gives the same result |
| UmiIterator.ClosedStaysClosed | src/main/java/picard/sam/markduplicates/UmiAwareDuplicateSetIterator.java:96-97 | after `close`, no sequence of `hasNext`/`next`/`close` calls reopens the iterator, and `hasNext` keeps answering false |
| UmiIterator.ExhaustionIsSticky | src/main/java/picard/sam/markduplicates/UmiAwareDuplicateSetIterator.java:126-137 | once `hasNext` has answered false, it answers false after any later sequence of calls |
| UmiRun.DrainInvariantStep | src/main/java/picard/sam/markduplicates/UmiAwareDuplicateSetIterator.java:140-145 | each successful `next` keeps the drain invariant: emitted plus pending is what was pending at the start, and the counters and histograms account for the sets consumed and the sub-sets buffered |
| UmiRun.DrainSafeNext | src/main/java/picard/sam/markduplicates/UmiAwareDuplicateSetIterator.java:140-145 | from a state where every upstream set clusters well and UMI_LENGTH is or will next be fixed large enough, `next` succeeds whenever there is more to read, and the state stays that way |
| UmiRun.DrainFailure | src/main/java/picard/sam/markduplicates/UmiAwareDuplicateSetIterator.java:140-145 | a `next` that fails during a drain fails on the set just taken from the upstream: a missing-sub-set or length failure names that set, and the drain did not start safe |
| UmiRun.RefillShape | src/main/java/picard/sam/markduplicates/UmiAwareDuplicateSetIterator.java:141-145 | a refilling `next` emits the first sub-set the clusterer returned for the next upstream set, buffers the rest, and counts exactly that one set and its sub-sets |
| UmiRun.Drain | src/main/java/picard/sam/markduplicates/UmiAwareDuplicateSetIterator.java:126-145 | a failure is a missing sub-set, a length mismatch or the binomial error, and the first two name an upstream set that caused them; a drain from a safe state (every set clusters well, UMI_LENGTH fixed large enough) always succeeds; success means every upstream set clustered well, the first refill found UMI_LENGTH large enough, and the drain emitted exactly the buffer followed by the clusterer's output for each upstream set in order, with DUPLICATE_SETS_WITHOUT_UMI counting every upstream set, DUPLICATE_SETS_WITH_UMI every sub-set, and the histograms and OBSERVED_BASE_ERRORS every emitted read |
| UmiRun.RefineAll | src/main/java/picard/sam/markduplicates/UmiAwareDuplicateSetIterator.java:81-203 | a whole run from fresh metrics to `close` succeeds iff every upstream set clusters into at least one sub-set whose UMIs have their inferred UMI's length, the edit distance is not positive or is within the length of the first UMI of the first set, and some UMI is seen; a missing-sub-set or length failure names the upstream set that caused it, and the empty-histogram failure means the run saw no UMI; on success it emits the concatenated clusterer output, and the metrics hold the number of upstream sets, the number of emitted sub-sets, the distinct observed and inferred UMIs, a base total of UMI_LENGTH per UMI-bearing read, and OBSERVED_BASE_ERRORS equal to the emitted reads' summed Hamming distances, which is at most the base total when every UMI has length UMI_LENGTH |
| WgsLocus.TallyLocus | src/main/java/picard/analysis/CollectWgsMetrics.java:690-705 | every record of a locus lands in exactly one of base-quality exclusion, overlap exclusion or pileup; the unfiltered depth never exceeds the cap; one quality above 2 is remembered per unit of unfiltered depth; the pileup size is the number of distinct read names |
| WgsLocus.TallyStep | src/main/java/picard/analysis/CollectWgsMetrics.java:691-704 | one record: it lands in exactly one outcome; it is a base-quality exclusion iff it fails the quality or no-call filters; it is an overlap exclusion iff it passes and its name was already seen; a passing record's name joins the name set; the unfiltered depth grows, and its quality is remembered, iff the quality is above 2 and the depth is below the cap |
| WgsLocus.PassingNamesBound | src/main/java/picard/analysis/CollectWgsMetrics.java:686-702 | there are no more distinct passing read names than passing records |
| WgsLocus.TallyNames | src/main/java/picard/analysis/CollectWgsMetrics.java:686-702 | the read-name set is exactly the names of the records that pass the quality and no-call filters |
| WgsLocus.TallyBaseqExclusions | src/main/java/picard/analysis/CollectWgsMetrics.java:691-701 | the base-quality exclusions are exactly the records with quality ≤ 2, below the minimum, or a no-call |
| WgsLocus.TallyCountedQualities | src/main/java/picard/analysis/CollectWgsMetrics.java:691-698 | the qualities added to the base-quality histogram are those above 2, in record order, cut off at the coverage cap |
| WgsLocus.TallyUnfilteredDepth | src/main/java/picard/analysis/CollectWgsMetrics.java:691-698 | the unfiltered depth is the number of records above quality 2, capped at the coverage cap |
| WgsLocus.TallyQualitiesBounded | src/main/java/picard/analysis/CollectWgsMetrics.java:695-697 | a bound on the records' qualities bounds every quality added to the base-quality histogram |
| WgsLocus.TallyClassifies | src/main/java/picard/analysis/CollectWgsMetrics.java:686-705 | the scan against independent reference counts: the base-quality, overlap and pileup counts, and the remembered qualities and unfiltered depth |
| WgsLocus.RepeatedNameIsOverlap | src/main/java/picard/analysis/CollectWgsMetrics.java:686-702 | two passing records with the same read name leave the pileup below the passing count and make the overlap count positive |
| WgsLocus.RepeatShrinksNames | src/main/java/picard/analysis/CollectWgsMetrics.java:686-702 | a repeated passing read name makes the distinct names fewer than the passing records |
| WgsLocus.NameInPassingNames | src/main/java/picard/analysis/CollectWgsMetrics.java:700-702 | every passing record's read name is in the read-name set |
| WgsCollector.NewCollectorAsWritten | src/main/java/picard/analysis/CollectWgsMetrics.java:675-681 | as written, all three arrays get coverageCap + 1 bins, every bin of each is zero, and the counters start at zero |
| WgsCollector.NewCollector | src/main/java/picard/analysis/CollectWgsMetrics.java:675-681 | the corrected constructor: depth arrays of coverageCap + 1 bins, a base-quality array of one bin per byte quality, all totals zero, histograms consistent |
| WgsCollector.BumpQualities | src/main/java/picard/analysis/CollectWgsMetrics.java:696 | each bin grows by the number of times its quality was added, and the total grows by the number of qualities |
| WgsCollector.BumpQualitiesChecked | src/main/java/picard/analysis/CollectWgsMetrics.java:696 | the increments succeed iff every quality indexes the array; on success they agree with the unchecked increments; otherwise they fail with an out-of-range quality and the array's length |
| WgsCollector.AddInfo | src/main/java/picard/analysis/CollectWgsMetrics.java:683-711 | the corrected `addInfo` never fails, and keeps the arrays' shapes, the cap and the minimum quality |
| WgsCollector.AddInfoAsWritten | src/main/java/picard/analysis/CollectWgsMetrics.java:683-711 | `addInfo` as written fails exactly when a remembered base quality does not index the base-quality array; otherwise it keeps the array shapes |
| WgsCollector.Record | src/main/java/picard/analysis/CollectWgsMetrics.java:707-710 | the updates after the loop: the locus is filed under bin min(pileupSize, coverageCap) of the high-quality array and bin unfilteredDepth of the unfiltered one, nothing else in either array changes, the capping counter grows by what the clamp cut off, and the other two counters by the locus's exclusions |
| WgsCollector.AddInfoDepthBins | src/main/java/picard/analysis/CollectWgsMetrics.java:707-710 | the locus is filed under exactly one bin of each depth array: the number of distinct passing read names and the number of records above quality 2, each clamped to the cap |
| WgsCollector.AddInfoExclusions | src/main/java/picard/analysis/CollectWgsMetrics.java:691-708 | the exclusion counters grow by the records that fail the filters, by the repeats of passing names, and by pileupSize - coverageCap exactly when the pileup exceeds the cap |
| WgsCollector.AddInfoQualityBins | src/main/java/picard/analysis/CollectWgsMetrics.java:695-698 | each base-quality bin grows by the occurrences of its quality among the qualities above 2, in order, up to the cap |
| WgsCollector.AddInfoPartition | src/main/java/picard/analysis/CollectWgsMetrics.java:690-710 | every record of the locus is counted exactly once: as a base-quality, overlap or capping exclusion, or in the high-quality depth the locus is filed under |
| WgsCollector.RecordPreservesConsistency | src/main/java/picard/analysis/CollectWgsMetrics.java:707-710 | the updates after the loop add one locus to each depth array and keep the base-quality total equal to the weighted unfiltered depth total |
| WgsCollector.AddInfoPreservesConsistency | src/main/java/picard/analysis/CollectWgsMetrics.java:695-710 | `addInfo` adds one locus to each depth array and keeps the relation that `doWork` checks |
| WgsCollector.AsWrittenAgreesWhenSized | src/main/java/picard/analysis/CollectWgsMetrics.java:683-711 | on a collector with a correctly sized base-quality array, the as-written update succeeds and agrees with the corrected one |
| WgsCollector.AsWrittenSafeWithinCap | src/main/java/picard/analysis/CollectWgsMetrics.java:678-696 | with the array sized as written, the update cannot fail when no base quality exceeds the coverage cap |
| WgsCollector.AsWrittenPreservesConsistency | src/main/java/picard/analysis/CollectWgsMetrics.java:678-710 | whenever the as-written update succeeds, it adds one locus to each depth array and keeps the relation that `doWork` checks |
| WgsCollector.AsWrittenOverflow | src/main/java/picard/analysis/CollectWgsMetrics.java:678-696 | with coverageCap 10, one read of base quality 30 indexes bin 30 of an 11-bin array: the as-written update fails, and the corrected one files the base under quality 30 |
| WgsCollector.AddLoci | src/main/java/picard/analysis/CollectWgsMetrics.java:683-711 | a sequential fold of `addInfo` over the loci keeps the collector's shape, cap and minimum quality |
| WgsCollector.RunInvariant | src/main/java/picard/analysis/CollectWgsMetrics.java:690-710 | after any run from a fresh collector, each depth array totals the number of loci; the consistency relation holds; high-quality bases plus the three exclusion counters equal the number of pileup records |
| WgsCollector.CheckHistograms | src/main/java/picard/analysis/CollectWgsMetrics.java:522-532 | the check passes iff the base-quality total equals the depth-weighted unfiltered total, and otherwise reports both totals |
| WgsCollector.CollectAndCheck | src/main/java/picard/analysis/CollectWgsMetrics.java:522-532 | a run of the corrected collector over any loci always passes the `doWork` check, with one high-quality depth entry per locus |
| WgsHistograms.GetHistogram | src/main/java/picard/analysis/CollectWgsMetrics.java:744-750 | the histogram has one bin per array index |
| WgsHistograms.GetHistogramContents | src/main/java/picard/analysis/CollectWgsMetrics.java:744-750 | bin i holds exactly array[i]; the histogram's count total and weighted total are the array's |
| WgsHistograms.FoldDepths | src/main/java/picard/analysis/CollectWgsMetrics.java:378-383 | the folded array has one bin per depth 0..cap and the same total count as the histogram |
| WgsHistograms.FoldDepthsBins | src/main/java/picard/analysis/CollectWgsMetrics.java:380-383 | below the cap each folded bin holds the count of its own depth; the cap bin holds the counts of every depth at or above the cap |
| WgsHistograms.FoldGetHistogram | src/main/java/picard/analysis/CollectWgsMetrics.java:378-383 | folding the histogram built from a depth array of coverageCap + 1 bins gives back that array |
| WgsHistograms.CountAtGetHistogram | src/main/java/picard/analysis/CollectWgsMetrics.java:744-750 | the histogram's count for an index of the array is the array's value there |
| WgsHistograms.CountAtAbsent | src/main/java/picard/analysis/CollectWgsMetrics.java:744-750 | an id past the end of the array has no count |
| WgsHistograms.CountFromGetHistogram | src/main/java/picard/analysis/CollectWgsMetrics.java:744-750 | the count at or above the last index is the last bin's value |
| WgsHistograms.CountFromAbsent | src/main/java/picard/analysis/CollectWgsMetrics.java:744-750 | there is no count at or above an id past the end of the array |
| WgsHistograms.RunTotals | src/main/java/picard/analysis/CollectWgsMetrics.java:378-385 | after any run, GENOME_TERRITORY is the number of loci, folding keeps that total, and `getSum` plus the three exclusion counters account for every pileup record |

## Left out

- The clusterer `UmiGraph.joinUmisIntoDuplicateSets` (UmiAwareDuplicateSetIterator.java:160-162) is not part of this model. It is a function parameter, and its only assumed behaviour is that each sub-set carries the inferred UMI of its representative. Its tie-break rule and its missing-UMI error are not modelled.
- The floating-point and logarithmic metrics are not modelled, because the model has no faithful `double`, `log` or `pow`:
  - `effectiveNumberOfBases`;
  - `expectedCollisions` and UMI_COLLISION_RATE;
  - UMI_AVOIDANCE;
  - the EFFECTIVE_LENGTH_* fields;
  - every PCT_*, mean, SD, median, MAD and het-sensitivity value of CollectWgsMetrics.

  ESTIMATED_BASE_QUALITY_OF_UMIS is kept symbolically as the ratio of errors to bases. Z is kept as the exact integer sum, not as the `double` the code accumulates.
- `gini` is floating-point and is not modelled. Only its failure is kept: it reads `cumsum[0]` of an empty histogram, so UmiIterator.Close fails when no UMI was seen.
- EXPECTED_UMI_COLLISIONS, UMI_COLLISION_RATE and GINI_COEFFICIENT are assigned by the iterator but are not declared in UmiMetrics.java, so the record has no such fields. The private `brokenByUmiDistribution` array is never used and is not modelled either.
- `LongMath.binomial` is modelled by CollisionModel.CheckedBinomial, which fails when k > n as Guava does. Its overflow behaviour (the result saturating at `Long.MAX_VALUE`) is not modelled.
- Java `int`/`long` overflow of the counters and of the `AtomicLong` arrays is not modelled; all counts are unbounded naturals.
- UmiIterator.Process: when the binomial check fails, the Java code has already updated the counters, the histograms and the two set counters, and has left the buffer as it was. When `hammingDistance` throws on a later sub-set (line 179), the Java code has already counted the earlier sub-sets (line 188) and their reads (lines 179-183). In both cases the model returns only the failure.
- UmiIterator.Close: when the binomial or `gini` step fails, the Java code has already set `isOpen` to false, closed the upstream and copied the unique-UMI and set counters into the metrics. The model returns only the failure.
- UmiIterator.Next: when the clusterer returns no sub-sets, the Java code has already consumed the upstream set and counted it (line 190) before `next()` throws NoSuchElementException. The model returns only the failure.
- UmiIterator.ReadStep: when `hammingDistance` fails, the Java code has already set UMI_LENGTH and `haveWeSeenFirstRead`. The model drops that partial update and returns only the failure.
- WgsCollector.AddInfoAsWritten: when an increment runs past the array, the Java code has already applied earlier increments and counter updates. The executor then swallows the exception inside a worker. The model returns only the failure.
- The upstream after `close` (`wrappedIterator.close()`) is a flag; what the wrapped iterator does afterwards is not modelled. UmiIterator.Next on a closed iterator still reads the buffer, as the Java code does.
- A null inferred-UMI attribute on a representative read is not modelled; every sub-set carries an inferred UMI string.
- The UMI and read-name tags, `allowMissingUmis`, and the `SAMRecord` accessors are reduced to an optional observed UMI, a read name, a base quality, and a no-call flag. `SequenceUtil.isNoCall` is the boolean `readBaseIsNoCall`.
- A negative `coverageCap` is excluded by typing it as `nat`. In Java, a cap below -1 makes the constructor throw on a negative array size (CollectWgsMetrics.java:676). A cap of -1 gives empty arrays, and the first `addInfo` then throws at `getAndIncrement(-1)` (line 709).
- Concurrency and I/O are not modelled: the `ExecutorService` of `doWork`, the atomics, the `SamReader`/`SamLocusIterator`, reference walking, `MetricsFile` output, interval-list merging and the command-line options. `addInfo` is applied sequentially, locus by locus.
- The MAPQ, duplicate and pairing filters run before `addInfo` and are not part of this model. WgsHistograms.RunTotals therefore accounts only for the part of `totalWithExcludes` the collector counts.
- src/test/java/picard/vcf/VcfTestUtils.java is not part of this model: its temp-file and VCF-index helpers hold no modellable logic.

## Findings

| source | as written | input that shows it | evidently intended | confidence | as-written member | corrected member |
|---|---|---|---|---|---|---|
| src/main/java/picard/analysis/CollectWgsMetrics.java:678-696 | the unfiltered base-quality array gets coverageCap + 1 bins, but each base's quality is used as the index | coverageCap = 10 and one read whose base at the locus has quality 30: `getAndIncrement(30)` on an 11-bin `AtomicLongArray` throws IndexOutOfBoundsException | one bin per possible base quality, independent of the coverage cap | not executed | WgsCollector.AsWrittenOverflow | WgsCollector.NewCollector |

=== FILE: collision.dfy ===
/** The integer collision neighbourhood used by the UMI collision estimates:
    Z(L, d) = sum over k = 0..d of C(L, k) * 3^k, the number of length-L
    strings over a four-letter alphabet within Hamming distance d of a fixed
    one. The iterator computes it in `process` and again in `close`, with
    L = UMI_LENGTH and d = maxEditDistanceToJoin; only the integer sum is
    modelled here, not the floating-point estimates built on it.
 */
module CollisionModel {
  import opened Wrappers

  /** The argument check of `LongMath.binomial(n, k)`: it rejects k > n. */
  datatype BinomialError = KExceedsN(n: nat, k: nat)

  /** The binomial coefficient by Pascal's rule; zero when k > n. */
  function Binomial(n: nat, k: nat): nat
    decreases n
  {
    if k == 0 then 1
    else if n == 0 then 0
    else Binomial(n - 1, k - 1) + Binomial(n - 1, k)
  }

  function Pow(b: nat, e: nat): nat
    decreases e
  {
    if e == 0 then 1 else b * Pow(b, e - 1)
  }

  /** Z(L, d). A negative `d` makes the Java loop run zero times, so Z = 0. */
  function Neighbourhood(umiLength: nat, d: int): nat
    decreases if d < 0 then 0 else d + 1
  {
    if d < 0 then 0 else Neighbourhood(umiLength, d - 1) + Binomial(umiLength, d) * Pow(3, d)
  }

  /** `LongMath.binomial(n, k)` for k >= 0: C(n, k), or the argument error
      when k > n. */
  function CheckedBinomial(n: nat, k: nat): (r: Result<nat, BinomialError>)
    ensures r.Success? <==> k <= n
    ensures r.Success? ==> r.value == Binomial(n, k) && r.value > 0
    ensures r.Failure? ==> r.error == KExceedsN(n, k)
  {
    if k > n then Failure(KExceedsN(n, k))
    else
      BinomialPositive(n, k);
      Success(Binomial(n, k))
  }

  /** The loop `for k = 0..d: Z += binomial(L, k) * 3^k` as the iterator runs
      it: defined exactly when d <= L; otherwise the first k past L aborts it.
      Where it is defined it is the neighbourhood Z(L, d). */
  function CheckedNeighbourhood(umiLength: nat, d: int): (r: Result<nat, BinomialError>)
    ensures r.Success? <==> d <= umiLength
    ensures r.Success? ==> r.value == Neighbourhood(umiLength, d)
    ensures r.Failure? ==> r.error == KExceedsN(umiLength, umiLength + 1)
    decreases if d < 0 then 0 else d + 1
  {
    if d < 0 then Success(0)
    else
      var z :- CheckedNeighbourhood(umiLength, d - 1);
      var c :- CheckedBinomial(umiLength, d);
      Success(z + c * Pow(3, d))
  }

  lemma {:induction false} BinomialPositive(n: nat, k: nat)
    requires k <= n
    ensures Binomial(n, k) > 0
    decreases n
  {
    if k > 0 {
      BinomialPositive(n - 1, k - 1);
    }
  }

  /** With no errors tolerated, only the string itself is in its neighbourhood. */
  lemma ExactMatchNeighbourhood(umiLength: nat)
    ensures Neighbourhood(umiLength, 0) == 1
  {
  }

  lemma {:induction false} NeighbourhoodMonotone(umiLength: nat, d1: int, d2: int)
    requires d1 <= d2
    ensures Neighbourhood(umiLength, d1) <= Neighbourhood(umiLength, d2)
    decreases d2 - d1
  {
    if d1 < d2 {
      NeighbourhoodMonotone(umiLength, d1, d2 - 1);
    }
  }

  lemma {:induction false} EmptyUmiNeighbourhood(d: int)
    ensures Neighbourhood(0, d) == if d < 0 then 0 else 1
    decreases if d < 0 then 0 else d + 1
  {
    if d > 0 {
      EmptyUmiNeighbourhood(d - 1);
    }
  }

  /** Pascal's rule lifted to the neighbourhood: a string one base longer is
      either equal in the new base (Z(L, d)) or differs there in one of three
      ways (3 * Z(L, d - 1)). */
  lemma {:induction false} NeighbourhoodStep(umiLength: nat, d: int)
    ensures Neighbourhood(umiLength + 1, d) == Neighbourhood(umiLength, d) + 3 * Neighbourhood(umiLength, d - 1)
    decreases if d < 0 then 0 else d + 1
  {
    if d > 0 {
      NeighbourhoodStep(umiLength, d - 1);
      var p := Pow(3, d - 1);
      var c0 := Binomial(umiLength, d - 1);
      var c1 := Binomial(umiLength, d);
      assert Pow(3, d) == 3 * p;
      assert Binomial(umiLength + 1, d) == c0 + c1;
      PascalTerm(c0, c1, p);
    }
  }

  /** The new term of Pascal's rule for the neighbourhood splits into the
      term of the shorter string and three times the previous term. */
  lemma PascalTerm(c0: nat, c1: nat, p: nat)
    ensures (c0 + c1) * (3 * p) == c1 * (3 * p) + 3 * (c0 * p)
  {
    calc {
      (c0 + c1) * (3 * p);
      c0 * (3 * p) + c1 * (3 * p);
      { assert c0 * (3 * p) == 3 * (c0 * p); }
      c1 * (3 * p) + 3 * (c0 * p);
    }
  }

  /** The neighbourhood never exceeds the 4^L strings of length L, and is all
      of them once d reaches L. */
  lemma {:induction false} NeighbourhoodBound(umiLength: nat, d: int)
    ensures Neighbourhood(umiLength, d) <= Pow(4, umiLength)
    ensures d >= umiLength ==> Neighbourhood(umiLength, d) == Pow(4, umiLength)
    decreases umiLength
  {
    if umiLength == 0 {
      EmptyUmiNeighbourhood(d);
    } else {
      NeighbourhoodStep(umiLength - 1, d);
      NeighbourhoodBound(umiLength - 1, d);
      NeighbourhoodBound(umiLength - 1, d - 1);
    }
  }
}

=== FILE: hamming.dfy ===
/** The Hamming distance between two UMIs, as the iterator computes it:
    comparing UMIs of different lengths is an error, otherwise the result is
    the number of positions at which the two strings differ.
 */
module Hamming {
  import opened Wrappers

  datatype HammingError = DifferentLengths(left: nat, right: nat)

  /** Number of differing positions among the first `|a|` characters,
      counted left to right as the Java loop does. */
  function Mismatches(a: string, b: string): nat
    requires |a| == |b|
    decreases |a|
  {
    if |a| == 0 then 0
    else Mismatches(a[..|a| - 1], b[..|b| - 1]) + (if a[|a| - 1] != b[|b| - 1] then 1 else 0)
  }

  /** `hammingDistance`: fails on unequal lengths, otherwise counts mismatches. */
  function Distance(a: string, b: string): (r: Result<nat, HammingError>)
    ensures r.Failure? <==> |a| != |b|
  {
    if |a| != |b| then Failure(DifferentLengths(|a|, |b|)) else Success(Mismatches(a, b))
  }

  /** The positions below `k` at which `a` and `b` differ: an independent
      description of what the distance counts. */
  function DifferingPositions(a: string, b: string, k: nat): set<nat>
    requires k <= |a| == |b|
  {
    set i: nat | i < k && a[i] != b[i]
  }

  lemma {:induction false} MismatchesCountsPositions(a: string, b: string, k: nat)
    requires k <= |a| == |b|
    ensures Mismatches(a[..k], b[..k]) == |DifferingPositions(a, b, k)|
    decreases k
  {
    if k > 0 {
      MismatchesCountsPositions(a, b, k - 1);
      assert a[..k][..k - 1] == a[..k - 1];
      assert b[..k][..k - 1] == b[..k - 1];
      var below := DifferingPositions(a, b, k - 1);
      if a[k - 1] != b[k - 1] {
        assert DifferingPositions(a, b, k) == below + {k - 1};
        assert k - 1 !in below;
      } else {
        assert DifferingPositions(a, b, k) == below;
      }
    }
  }

  lemma {:induction false} MismatchesBound(a: string, b: string)
    requires |a| == |b|
    ensures Mismatches(a, b) <= |a|
    decreases |a|
  {
    if |a| > 0 {
      MismatchesBound(a[..|a| - 1], b[..|b| - 1]);
    }
  }

  lemma {:induction false} MismatchesZeroIffEqual(a: string, b: string)
    requires |a| == |b|
    ensures Mismatches(a, b) == 0 <==> a == b
    decreases |a|
  {
    if |a| > 0 {
      var n := |a| - 1;
      MismatchesZeroIffEqual(a[..n], b[..n]);
      assert a == a[..n] + [a[n]];
      assert b == b[..n] + [b[n]];
      if a == b {
        assert a[..n] == b[..n];
      }
    }
  }

  lemma {:induction false} MismatchesSymmetric(a: string, b: string)
    requires |a| == |b|
    ensures Mismatches(a, b) == Mismatches(b, a)
    decreases |a|
  {
    if |a| > 0 {
      MismatchesSymmetric(a[..|a| - 1], b[..|b| - 1]);
    }
  }

  /** Everything the iterator relies on about `hammingDistance`. */
  lemma DistanceProperties(a: string, b: string)
    ensures Distance(a, b).Failure? <==> |a| != |b|
    ensures Distance(a, b).Success? ==> Distance(a, b).value == |DifferingPositions(a, b, |a|)|
    ensures Distance(a, b).Success? ==> Distance(a, b).value <= |a|
    ensures Distance(a, b).Success? ==> (Distance(a, b).value == 0 <==> a == b)
    ensures Distance(a, b) == Distance(b, a) || (Distance(a, b).Failure? && Distance(b, a).Failure?)
  {
    if |a| == |b| {
      MismatchesCountsPositions(a, b, |a|);
      assert a[..|a|] == a && b[..|b|] == b;
      MismatchesBound(a, b);
      MismatchesZeroIffEqual(a, b);
      MismatchesSymmetric(a, b);
    }
  }

  /** The examples a unit test would check. */
  lemma DistanceExamples()
    ensures Distance("AAAA", "AAAA") == Success(0)
    ensures Distance("AAAA", "AAAT") == Success(1)
    ensures Distance("AAAA", "AAA").Failure?
  {
    MismatchesZeroIffEqual("AAAA", "AAAA");
    assert "AAAA"[..3] == "AAA" && "AAAT"[..3] == "AAA";
    MismatchesZeroIffEqual("AAA", "AAA");
  }
}

=== FILE: sums.dfy ===
/** Totals over count arrays (`long[]` / `AtomicLongArray` in the Java code),
    modelled as sequences of natural numbers indexed by bin.
 */
module Sums {

  /** The total of all bins. */
  function Sum(s: seq<nat>): nat
    decreases |s|
  {
    if |s| == 0 then 0 else Sum(s[..|s| - 1]) + s[|s| - 1]
  }

  /** The total of `i * s[i]` over all bins: for a depth histogram this is the
      number of bases that the depths account for. */
  function WeightedSum(s: seq<nat>): nat
    decreases |s|
  {
    if |s| == 0 then 0 else WeightedSum(s[..|s| - 1]) + (|s| - 1) * s[|s| - 1]
  }

  /** A freshly allocated array of `n` zero bins. */
  function Zeros(n: nat): (z: seq<nat>)
    ensures |z| == n
    ensures forall i :: 0 <= i < n ==> z[i] == 0
  {
    seq(n, _ => 0)
  }

  /** The array with bin `i` counted once more (`getAndIncrement(i)`). */
  function Incremented(s: seq<nat>, i: nat): seq<nat>
    requires i < |s|
  {
    s[i := s[i] + 1]
  }

  function Min(a: int, b: int): int {
    if a <= b then a else b
  }

  lemma {:induction false} ZerosSum(n: nat)
    ensures Sum(Zeros(n)) == 0
    ensures WeightedSum(Zeros(n)) == 0
  {
    if n > 0 {
      assert Zeros(n)[..n - 1] == Zeros(n - 1);
      ZerosSum(n - 1);
    }
  }

  /** Adding `v` to bin `i` adds `v` to the total and `i * v` to the weighted total. */
  lemma {:induction false} AddToBin(s: seq<nat>, i: nat, v: nat)
    requires i < |s|
    ensures Sum(s[i := s[i] + v]) == Sum(s) + v
    ensures WeightedSum(s[i := s[i] + v]) == WeightedSum(s) + i * v
    decreases |s|
  {
    var t := s[i := s[i] + v];
    var n := |s| - 1;
    if i == n {
      assert t[..n] == s[..n];
    } else {
      assert t[..n] == s[..n][i := s[i] + v];
      AddToBin(s[..n], i, v);
    }
  }

  /** The total of a concatenation is the sum of the totals. */
  lemma {:induction false} SumAppend(s: seq<nat>, t: seq<nat>)
    ensures Sum(s + t) == Sum(s) + Sum(t)
    decreases |t|
  {
    if |t| > 0 {
      var n := |t| - 1;
      assert (s + t)[..|s + t| - 1] == s + t[..n];
      SumAppend(s, t[..n]);
    } else {
      assert s + t == s;
    }
  }

  /** Extending a prefix by one bin adds that bin to both totals: the step of
      a left-to-right summing loop. */
  lemma PrefixStep(s: seq<nat>, i: nat)
    requires i < |s|
    ensures Sum(s[..i + 1]) == Sum(s[..i]) + s[i]
    ensures WeightedSum(s[..i + 1]) == WeightedSum(s[..i]) + i * s[i]
  {
    assert s[..i + 1][..i] == s[..i];
  }
}

=== FILE: umi_iterator.dfy ===
/** The UMI-aware duplicate-set iterator: a pull iterator over an upstream
    source of duplicate sets that hands each set to a clusterer, buffers the
    sub-sets it returns, and updates the UMI counters and histograms as it
    buffers them. The mutable Java object becomes an immutable state value
    threaded through `HasNext`, `Next`, `Process` and `Close`.
 */
module UmiIterator {
  import opened Wrappers
  import opened UmiMetricsRecord
  import Hamming
  import CollisionModel

  type Umi = string

  /** A record of a duplicate set; only its observed-UMI attribute matters
      here (`None` when the attribute is absent). */
  datatype Read = Read(observedUmi: Option<Umi>)

  /** An upstream duplicate set, as delivered by the wrapped iterator. */
  type DuplicateSet = seq<Read>

  /** A sub-set returned by the clusterer, with the inferred UMI that its
      representative read carries. */
  datatype Cluster = Cluster(records: seq<Read>, inferredUmi: Umi)

  /** The clusterer (`UmiGraph.joinUmisIntoDuplicateSets`, with its edit
      distance and tags fixed), left uninterpreted. */
  type Clusterer = DuplicateSet -> seq<Cluster>

  datatype IteratorError =
    | UmiLengthMismatch       // hammingDistance on UMIs of different lengths
    | BufferNotEmpty          // the re-entrancy guard of process
    | NoSuchElement           // next on an exhausted source or an empty cluster list
    | IllegalBinomial(n: nat, k: nat)   // LongMath.binomial(UMI_LENGTH, k) with k > UMI_LENGTH
    | EmptyGiniHistogram      // gini reading the first bin of an empty histogram

  /** The running state that outlives each duplicate set. */
  datatype UmiAccumulator = UmiAccumulator(
    haveSeenFirstRead: bool,
    duplicateSetsWithUmi: nat,
    duplicateSetsWithoutUmi: nat,
    observedUmis: multiset<Umi>,
    inferredUmis: multiset<Umi>,
    metrics: UmiMetrics)

  datatype UmiIterator = UmiIterator(
    upstream: seq<DuplicateSet>,       // what the wrapped iterator has not yet delivered
    upstreamClosed: bool,
    buffer: seq<Cluster>,              // what nextSetsIterator has not yet delivered
    isOpen: bool,
    maxEditDistanceToJoin: int,
    acc: UmiAccumulator)

  /** The constructor: open, empty buffer, counters at zero, histograms empty. */
  function NewIterator(upstream: seq<DuplicateSet>, maxEditDistanceToJoin: int, metrics: UmiMetrics): (it: UmiIterator)
    ensures it.isOpen && it.buffer == [] && it.upstream == upstream
    ensures it.acc.duplicateSetsWithUmi == 0 && it.acc.duplicateSetsWithoutUmi == 0
    ensures it.acc.observedUmis == multiset{} && it.acc.inferredUmis == multiset{}
    ensures !it.acc.haveSeenFirstRead && !it.upstreamClosed
    ensures it.acc.metrics == metrics && it.maxEditDistanceToJoin == maxEditDistanceToJoin
  {
    UmiIterator(upstream, false, [], true, maxEditDistanceToJoin,
                UmiAccumulator(false, 0, 0, multiset{}, multiset{}, metrics))
  }

  // ---------------------------------------------------------------------------
  // Reference descriptions of what the counters should account for
  // ---------------------------------------------------------------------------

  /** The observed UMIs of the records that carry one, as a multiset. */
  function ObservedUmis(records: seq<Read>): multiset<Umi>
    decreases |records|
  {
    if |records| == 0 then multiset{}
    else
      (match records[0].observedUmi
       case Some(u) => multiset{u}
       case None => multiset{}) + ObservedUmis(records[1..])
  }

  /** True when every UMI-bearing record's UMI has length `n`. */
  predicate UmisHaveLength(records: seq<Read>, n: nat) {
    forall i :: 0 <= i < |records| && records[i].observedUmi.Some? ==> |records[i].observedUmi.value| == n
  }

  /** The first UMI among the records, if any. */
  function FirstUmi(records: seq<Read>): Option<Umi>
    decreases |records|
  {
    if |records| == 0 then None
    else if records[0].observedUmi.Some? then records[0].observedUmi
    else FirstUmi(records[1..])
  }

  /** Observed UMIs of every record of every cluster. */
  function ClusterObservedUmis(clusters: seq<Cluster>): multiset<Umi>
    decreases |clusters|
  {
    if |clusters| == 0 then multiset{}
    else ObservedUmis(clusters[0].records) + ClusterObservedUmis(clusters[1..])
  }

  /** One copy of its cluster's inferred UMI per UMI-bearing record. */
  function ClusterInferredUmis(clusters: seq<Cluster>): multiset<Umi>
    decreases |clusters|
  {
    if |clusters| == 0 then multiset{}
    else multiset{}[clusters[0].inferredUmi := |ObservedUmis(clusters[0].records)|]
         + ClusterInferredUmis(clusters[1..])
  }

  /** The sub-sets the clusterer produces for a run of upstream sets, in order. */
  function Flatten(join: Clusterer, sets: seq<DuplicateSet>): seq<Cluster>
    decreases |sets|
  {
    if |sets| == 0 then [] else join(sets[0]) + Flatten(join, sets[1..])
  }

  /** Everything the iterator will still emit if nothing fails. */
  function Pending(it: UmiIterator, join: Clusterer): seq<Cluster> {
    it.buffer + Flatten(join, it.upstream)
  }

  /** The Hamming distance a record contributes to OBSERVED_BASE_ERRORS: that
      of its observed UMI to the inferred one (no record without a UMI, or
      with a UMI of another length, contributes). */
  function ReadErrors(rec: Read, inferred: Umi): nat {
    match rec.observedUmi
    case None => 0
    case Some(u) => if |u| == |inferred| then Hamming.Mismatches(u, inferred) else 0
  }

  /** The total Hamming distance of the records' UMIs to the inferred UMI. */
  function ObservedErrors(records: seq<Read>, inferred: Umi): nat
    decreases |records|
  {
    if |records| == 0 then 0 else ReadErrors(records[0], inferred) + ObservedErrors(records[1..], inferred)
  }

  /** The total Hamming distance of every sub-set's UMIs to its inferred UMI. */
  function ClusterErrors(clusters: seq<Cluster>): nat
    decreases |clusters|
  {
    if |clusters| == 0 then 0
    else ObservedErrors(clusters[0].records, clusters[0].inferredUmi) + ClusterErrors(clusters[1..])
  }

  /** True when every UMI of every sub-set has the length of that sub-set's
      inferred UMI: exactly when no `hammingDistance` call of `process` throws. */
  predicate ClustersMatchInferred(clusters: seq<Cluster>) {
    forall i :: 0 <= i < |clusters| ==> UmisHaveLength(clusters[i].records, |clusters[i].inferredUmi|)
  }

  /** The first UMI among all records of the sub-sets, in order. */
  function ClusterFirstUmi(clusters: seq<Cluster>): Option<Umi>
    decreases |clusters|
  {
    if |clusters| == 0 then None
    else if FirstUmi(clusters[0].records).Some? then FirstUmi(clusters[0].records)
    else ClusterFirstUmi(clusters[1..])
  }

  /** UMI_LENGTH once `clusters` are accounted for: the first UMI ever seen
      fixes it, and until then it keeps the metrics' value. */
  function ReachedUmiLength(acc: UmiAccumulator, clusters: seq<Cluster>): nat {
    if !acc.haveSeenFirstRead && ClusterFirstUmi(clusters).Some? then |ClusterFirstUmi(clusters).value|
    else acc.metrics.umiLength
  }

  /** True when every UMI-bearing record of every sub-set has a UMI of length `n`. */
  predicate ClustersHaveLength(clusters: seq<Cluster>, n: nat) {
    forall i :: 0 <= i < |clusters| ==> UmisHaveLength(clusters[i].records, n)
  }

  // ---------------------------------------------------------------------------
  // process: per-read and per-set accounting
  // ---------------------------------------------------------------------------

  /** The body of the inner loop of `process` for one record of a sub-set
      whose representative carries `inferred`. */
  function ReadStep(acc: UmiAccumulator, rec: Read, inferred: Umi): (r: Result<UmiAccumulator, IteratorError>)
    ensures r.Success? <==> (rec.observedUmi.Some? ==> |rec.observedUmi.value| == |inferred|)
    ensures r.Failure? ==> r.error == UmiLengthMismatch
    ensures r.Success? && rec.observedUmi.None? ==> r.value == acc
    ensures r.Success? ==> OnlyReadCountersChanged(acc.metrics, r.value.metrics)
    ensures r.Success? ==> r.value.duplicateSetsWithUmi == acc.duplicateSetsWithUmi
                           && r.value.duplicateSetsWithoutUmi == acc.duplicateSetsWithoutUmi
    ensures r.Success? ==> r.value.metrics.observedBaseErrors == acc.metrics.observedBaseErrors + ReadErrors(rec, inferred)
    ensures r.Success? && acc.haveSeenFirstRead ==> r.value.haveSeenFirstRead && r.value.metrics.umiLength == acc.metrics.umiLength
    ensures r.Success? && !acc.haveSeenFirstRead && rec.observedUmi.Some? ==>
              r.value.metrics.umiLength == |rec.observedUmi.value|
    ensures r.Success? && rec.observedUmi.Some? ==>
              && r.value.haveSeenFirstRead
              && r.value.metrics.totalUmiBasesObserved == acc.metrics.totalUmiBasesObserved + r.value.metrics.umiLength
              && r.value.observedUmis == acc.observedUmis + multiset{rec.observedUmi.value}
              && r.value.inferredUmis == acc.inferredUmis + multiset{inferred}
  {
    match rec.observedUmi
    case None => Success(acc)
    case Some(u) =>
      var umiLength := if acc.haveSeenFirstRead then acc.metrics.umiLength else |u|;
      match Hamming.Distance(u, inferred)
      case Failure(_) => Failure(UmiLengthMismatch)
      case Success(d) =>
        Success(acc.(
          haveSeenFirstRead := true,
          observedUmis := acc.observedUmis + multiset{u},
          inferredUmis := acc.inferredUmis + multiset{inferred},
          metrics := acc.metrics.(
            umiLength := umiLength,
            observedBaseErrors := acc.metrics.observedBaseErrors + d,
            totalUmiBasesObserved := acc.metrics.totalUmiBasesObserved + umiLength)))
  }

  /** The inner loop of `process` over the records of one sub-set. */
  function AccumulateReads(acc: UmiAccumulator, records: seq<Read>, inferred: Umi): (r: Result<UmiAccumulator, IteratorError>)
    ensures r.Success? <==> UmisHaveLength(records, |inferred|)
    ensures r.Failure? ==> r.error == UmiLengthMismatch
    ensures r.Success? ==> r.value.duplicateSetsWithUmi == acc.duplicateSetsWithUmi
    ensures r.Success? ==> r.value.duplicateSetsWithoutUmi == acc.duplicateSetsWithoutUmi
    ensures r.Success? ==> r.value.observedUmis == acc.observedUmis + ObservedUmis(records)
    ensures r.Success? ==> r.value.inferredUmis == acc.inferredUmis + multiset{}[inferred := |ObservedUmis(records)|]
    ensures r.Success? ==> r.value.metrics.observedBaseErrors == acc.metrics.observedBaseErrors + ObservedErrors(records, inferred)
    decreases |records|
  {
    if |records| == 0 then Success(acc)
    else
      var next :- ReadStep(acc, records[0], inferred);
      AccumulateReads(next, records[1..], inferred)
  }

  /** The outer loop of `process` over the sub-sets the clusterer returned:
      the per-read accounting, then one more set counted with a UMI. */
  function AccumulateClusters(acc: UmiAccumulator, clusters: seq<Cluster>): (r: Result<UmiAccumulator, IteratorError>)
    ensures r.Success? <==> ClustersMatchInferred(clusters)
    ensures r.Failure? ==> r.error == UmiLengthMismatch
    ensures r.Success? ==> r.value.haveSeenFirstRead == (acc.haveSeenFirstRead || ClusterFirstUmi(clusters).Some?)
    ensures r.Success? ==> r.value.metrics.umiLength == ReachedUmiLength(acc, clusters)
    ensures r.Success? ==> r.value.duplicateSetsWithUmi == acc.duplicateSetsWithUmi + |clusters|
    ensures r.Success? ==> r.value.duplicateSetsWithoutUmi == acc.duplicateSetsWithoutUmi
    ensures r.Success? ==> r.value.observedUmis == acc.observedUmis + ClusterObservedUmis(clusters)
    ensures r.Success? ==> r.value.inferredUmis == acc.inferredUmis + ClusterInferredUmis(clusters)
    ensures r.Success? ==> r.value.metrics.observedBaseErrors == acc.metrics.observedBaseErrors + ClusterErrors(clusters)
    decreases |clusters|
  {
    if |clusters| == 0 then Success(acc)
    else
      ClustersMatchInferredSplit(clusters);
      var afterReads :- AccumulateReads(acc, clusters[0].records, clusters[0].inferredUmi);
      var counted := afterReads.(duplicateSetsWithUmi := afterReads.duplicateSetsWithUmi + 1);
      ReadLengthAccounting(acc, clusters[0].records, clusters[0].inferredUmi);
      ReachedUmiLengthStep(acc, counted, clusters);
      AccumulateClusters(counted, clusters[1..])
  }

  /** Accounting for the first sub-set carries the first UMI seen, and so
      the UMI length reached, over to the remaining sub-sets. */
  lemma ReachedUmiLengthStep(acc: UmiAccumulator, mid: UmiAccumulator, clusters: seq<Cluster>)
    requires |clusters| > 0
    requires acc.haveSeenFirstRead ==> mid.haveSeenFirstRead && mid.metrics.umiLength == acc.metrics.umiLength
    requires !acc.haveSeenFirstRead ==> (mid.haveSeenFirstRead <==> FirstUmi(clusters[0].records).Some?)
    requires !acc.haveSeenFirstRead && FirstUmi(clusters[0].records).Some? ==>
               mid.metrics.umiLength == |FirstUmi(clusters[0].records).value|
    requires FirstUmi(clusters[0].records).None? ==> mid.metrics.umiLength == acc.metrics.umiLength
    ensures (mid.haveSeenFirstRead || ClusterFirstUmi(clusters[1..]).Some?)
              == (acc.haveSeenFirstRead || ClusterFirstUmi(clusters).Some?)
    ensures ReachedUmiLength(mid, clusters[1..]) == ReachedUmiLength(acc, clusters)
  {
  }

  /** The sub-sets match their inferred UMIs exactly when the first does and
      the rest do. */
  lemma ClustersMatchInferredSplit(clusters: seq<Cluster>)
    requires |clusters| > 0
    ensures ClustersMatchInferred(clusters) <==>
              UmisHaveLength(clusters[0].records, |clusters[0].inferredUmi|) && ClustersMatchInferred(clusters[1..])
  {
    if UmisHaveLength(clusters[0].records, |clusters[0].inferredUmi|) && ClustersMatchInferred(clusters[1..]) {
      forall i | 0 <= i < |clusters| ensures UmisHaveLength(clusters[i].records, |clusters[i].inferredUmi|) {
        if i > 0 {
          assert clusters[i] == clusters[1..][i - 1];
        }
      }
    }
    if ClustersMatchInferred(clusters) {
      forall i | 0 <= i < |clusters| - 1
        ensures UmisHaveLength(clusters[1..][i].records, |clusters[1..][i].inferredUmi|)
      {
        assert clusters[1..][i] == clusters[i + 1];
      }
    }
  }

  /** `process`: refuses to run while the buffer still holds sub-sets,
      otherwise clusters the set, accounts for it, computes the collision
      neighbourhood of the UMI length reached (which fails when the edit
      distance exceeds it) and buffers the result. */
  function Process(it: UmiIterator, dupSet: DuplicateSet, join: Clusterer): (r: Result<UmiIterator, IteratorError>)
    ensures r.Failure? && r.error == BufferNotEmpty <==> |it.buffer| > 0
    ensures r.Success? <==> && |it.buffer| == 0
                            && ClustersMatchInferred(join(dupSet))
                            && it.maxEditDistanceToJoin <= ReachedUmiLength(it.acc, join(dupSet))
    ensures r.Failure? && r.error == UmiLengthMismatch <==> |it.buffer| == 0 && !ClustersMatchInferred(join(dupSet))
    ensures r.Failure? && r.error.IllegalBinomial? ==>
              && r.error == IllegalBinomial(ReachedUmiLength(it.acc, join(dupSet)), ReachedUmiLength(it.acc, join(dupSet)) + 1)
              && it.maxEditDistanceToJoin > ReachedUmiLength(it.acc, join(dupSet))
    ensures r.Failure? ==> r.error == BufferNotEmpty || r.error == UmiLengthMismatch || r.error.IllegalBinomial?
    ensures r.Success? ==> r.value.acc.haveSeenFirstRead == (it.acc.haveSeenFirstRead || ClusterFirstUmi(join(dupSet)).Some?)
    ensures r.Success? ==> r.value.acc.metrics.umiLength == ReachedUmiLength(it.acc, join(dupSet))
    ensures r.Success? ==> r.value.maxEditDistanceToJoin == it.maxEditDistanceToJoin
    ensures r.Success? ==> r.value.acc.metrics.observedBaseErrors == it.acc.metrics.observedBaseErrors + ClusterErrors(join(dupSet))
    ensures r.Success? ==> r.value.buffer == join(dupSet)
    ensures r.Success? ==> r.value.upstream == it.upstream && r.value.isOpen == it.isOpen
    ensures r.Success? ==> r.value.acc.duplicateSetsWithoutUmi == it.acc.duplicateSetsWithoutUmi + 1
    ensures r.Success? ==> r.value.acc.duplicateSetsWithUmi == it.acc.duplicateSetsWithUmi + |join(dupSet)|
    ensures r.Success? ==> r.value.acc.observedUmis == it.acc.observedUmis + ClusterObservedUmis(join(dupSet))
    ensures r.Success? ==> r.value.acc.inferredUmis == it.acc.inferredUmis + ClusterInferredUmis(join(dupSet))
  {
    if |it.buffer| > 0 then Failure(BufferNotEmpty)
    else
      var clusters := join(dupSet);
      var acc :- AccumulateClusters(it.acc, clusters);
      var counted := it.(acc := acc.(duplicateSetsWithoutUmi := acc.duplicateSetsWithoutUmi + 1));
      var z :- CollisionNeighbourhood(counted);
      Success(counted.(buffer := clusters))
  }

  /** The collision neighbourhood Z that `process` and `close` both compute
      from the state's UMI length and edit distance. Guava's binomial makes
      it fail when the edit distance exceeds the UMI length; otherwise it is
      1 at edit distance 0, at most 4^UMI_LENGTH, and all of 4^UMI_LENGTH
      when the edit distance equals the UMI length. */
  function CollisionNeighbourhood(it: UmiIterator): (r: Result<nat, IteratorError>)
    ensures r.Success? <==> it.maxEditDistanceToJoin <= it.acc.metrics.umiLength
    ensures r.Failure? ==> r.error == IllegalBinomial(it.acc.metrics.umiLength, it.acc.metrics.umiLength + 1)
    ensures r.Success? ==> r.value == CollisionModel.Neighbourhood(it.acc.metrics.umiLength, it.maxEditDistanceToJoin)
    ensures r.Success? && it.maxEditDistanceToJoin == 0 ==> r.value == 1
    ensures r.Success? ==> r.value <= CollisionModel.Pow(4, it.acc.metrics.umiLength)
    ensures r.Success? && it.maxEditDistanceToJoin == it.acc.metrics.umiLength ==>
              r.value == CollisionModel.Pow(4, it.acc.metrics.umiLength)
  {
    match CollisionModel.CheckedNeighbourhood(it.acc.metrics.umiLength, it.maxEditDistanceToJoin)
    case Failure(e) => Failure(IllegalBinomial(e.n, e.k))
    case Success(z) =>
      CollisionModel.NeighbourhoodBound(it.acc.metrics.umiLength, it.maxEditDistanceToJoin);
      Success(z)
  }

  // ---------------------------------------------------------------------------
  // The iterator protocol
  // ---------------------------------------------------------------------------

  /** `hasNext`: false once closed; otherwise true while the buffer or the
      upstream has more, and on exhaustion it closes the iterator. */
  function HasNext(it: UmiIterator): (r: (bool, UmiIterator))
    ensures r.0 <==> it.isOpen && (|it.buffer| > 0 || |it.upstream| > 0)
    ensures !r.0 ==> !r.1.isOpen
    ensures r.1.buffer == it.buffer && r.1.upstream == it.upstream && r.1.acc == it.acc
  {
    if !it.isOpen then (false, it)
    else if |it.buffer| > 0 || |it.upstream| > 0 then (true, it)
    else (false, it.(isOpen := false))
  }

  /** `next`: refills the buffer from exactly one upstream set when it is
      empty, then hands out the first buffered sub-set. */
  function Next(it: UmiIterator, join: Clusterer): (r: Result<(Cluster, UmiIterator), IteratorError>)
    ensures r.Success? <==> || |it.buffer| > 0
                            || (&& |it.upstream| > 0 && join(it.upstream[0]) != []
                                && ClustersMatchInferred(join(it.upstream[0]))
                                && it.maxEditDistanceToJoin <= ReachedUmiLength(it.acc, join(it.upstream[0])))
    ensures r.Failure? ==> r.error == NoSuchElement || r.error == UmiLengthMismatch || r.error.IllegalBinomial?
    ensures r.Failure? ==> r.error != BufferNotEmpty && r.error != EmptyGiniHistogram
    ensures r.Failure? && r.error == UmiLengthMismatch ==>
              |it.buffer| == 0 && |it.upstream| > 0 && !ClustersMatchInferred(join(it.upstream[0]))
    ensures r.Failure? && r.error.IllegalBinomial? ==>
              |it.buffer| == 0 && |it.upstream| > 0 && r.error.k == r.error.n + 1 && it.maxEditDistanceToJoin > r.error.n
    ensures r.Success? && |it.buffer| == 0 ==>
              && r.value.1.acc.haveSeenFirstRead == (it.acc.haveSeenFirstRead || ClusterFirstUmi(join(it.upstream[0])).Some?)
              && r.value.1.acc.metrics.umiLength == ReachedUmiLength(it.acc, join(it.upstream[0]))
    ensures r.Failure? && r.error == NoSuchElement ==>
              |it.buffer| == 0 && (|it.upstream| == 0 || join(it.upstream[0]) == [])
    ensures r.Success? ==> [r.value.0] + Pending(r.value.1, join) == Pending(it, join)
    ensures r.Success? ==> r.value.1.isOpen == it.isOpen && r.value.1.upstreamClosed == it.upstreamClosed
    ensures r.Success? ==> r.value.1.maxEditDistanceToJoin == it.maxEditDistanceToJoin
    ensures r.Success? && |it.buffer| > 0 ==> r.value.1.upstream == it.upstream && r.value.1.acc == it.acc
    ensures r.Success? && |it.buffer| == 0 ==> r.value.1.upstream == it.upstream[1..]
    ensures r.Success? ==> r.value.1.acc.duplicateSetsWithoutUmi
                             == it.acc.duplicateSetsWithoutUmi + (if |it.buffer| == 0 then 1 else 0)
  {
    if |it.buffer| == 0 then
      if |it.upstream| == 0 then Failure(NoSuchElement)
      else
        var refilled :- Process(it.(upstream := it.upstream[1..]), it.upstream[0], join);
        if |refilled.buffer| == 0 then Failure(NoSuchElement)
        else
          PopFront(refilled.buffer, Flatten(join, refilled.upstream));
          Success((refilled.buffer[0], refilled.(buffer := refilled.buffer[1..])))
    else
      PopFront(it.buffer, Flatten(join, it.upstream));
      Success((it.buffer[0], it.(buffer := it.buffer[1..])))
  }

  /** Handing out the head of the buffer leaves the rest, then the upstream. */
  lemma PopFront(buffer: seq<Cluster>, rest: seq<Cluster>)
    requires |buffer| > 0
    ensures [buffer[0]] + (buffer[1..] + rest) == buffer + rest
  {
    assert buffer == [buffer[0]] + buffer[1..];
  }

  /** `close`: marks the iterator closed, closes the upstream, and copies the
      distinct-UMI counts and both set counters into the metrics before
      `computeMetrics`. On the way it computes Z, which fails when the edit
      distance exceeds the UMI length, and the Gini coefficient of the
      observed histogram, which fails when no UMI was seen. */
  function Close(it: UmiIterator): (r: Result<UmiIterator, IteratorError>)
    ensures r.Success? <==> it.maxEditDistanceToJoin <= it.acc.metrics.umiLength && |it.acc.observedUmis| > 0
    ensures r.Failure? && it.maxEditDistanceToJoin > it.acc.metrics.umiLength ==>
              r.error == IllegalBinomial(it.acc.metrics.umiLength, it.acc.metrics.umiLength + 1)
    ensures r.Failure? && it.maxEditDistanceToJoin <= it.acc.metrics.umiLength ==> r.error == EmptyGiniHistogram
    ensures r.Success? ==> !r.value.isOpen && r.value.upstreamClosed
    ensures r.Success? ==> !HasNext(r.value).0
    ensures r.Success? ==> r.value.maxEditDistanceToJoin == it.maxEditDistanceToJoin
    ensures r.Success? ==> r.value.acc.metrics.duplicateSetsWithUmi == it.acc.duplicateSetsWithUmi
    ensures r.Success? ==> r.value.acc.metrics.duplicateSetsWithoutUmi == it.acc.duplicateSetsWithoutUmi
    ensures r.Success? ==> r.value.acc.metrics.umiLength == it.acc.metrics.umiLength
    ensures r.Success? ==> r.value.acc.metrics.observedBaseErrors == it.acc.metrics.observedBaseErrors
    ensures r.Success? ==> r.value.acc.metrics.totalUmiBasesObserved == it.acc.metrics.totalUmiBasesObserved
    ensures r.Success? ==> r.value.acc.metrics.estimatedBaseQuality
                             == PhredOf(it.acc.metrics.observedBaseErrors, it.acc.metrics.totalUmiBasesObserved)
    ensures r.Success? ==> r.value.acc.observedUmis == it.acc.observedUmis && r.value.acc.inferredUmis == it.acc.inferredUmis
  {
    var m := it.acc.metrics.(
      observedUniqueUmis := |Distinct(it.acc.observedUmis)|,
      inferredUniqueUmis := |Distinct(it.acc.inferredUmis)|,
      duplicateSetsWithUmi := it.acc.duplicateSetsWithUmi,
      duplicateSetsWithoutUmi := it.acc.duplicateSetsWithoutUmi);
    var closing := it.(isOpen := false, upstreamClosed := true, acc := it.acc.(metrics := m));
    var z :- CollisionNeighbourhood(closing);
    if |it.acc.observedUmis| == 0 then Failure(EmptyGiniHistogram)
    else Success(closing.(acc := closing.acc.(metrics := ComputeMetrics(m))))
  }

  /** The keys of a histogram: `Histogram.size()` is the number of them. */
  function Distinct(h: multiset<Umi>): set<Umi> {
    set u | u in h
  }

  // ---------------------------------------------------------------------------
  // Per-read accounting
  // ---------------------------------------------------------------------------

  /** Only the three counters `process` writes per read may differ. */
  predicate OnlyReadCountersChanged(a: UmiMetrics, b: UmiMetrics) {
    b == a.(umiLength := b.umiLength,
            observedBaseErrors := b.observedBaseErrors,
            totalUmiBasesObserved := b.totalUmiBasesObserved)
  }

  lemma {:induction false} FirstUmiIffSomeUmi(records: seq<Read>)
    ensures FirstUmi(records).None? <==> |ObservedUmis(records)| == 0
    ensures FirstUmi(records).Some? ==> FirstUmi(records).value in ObservedUmis(records)
    decreases |records|
  {
    if |records| > 0 {
      FirstUmiIffSomeUmi(records[1..]);
    }
  }

  lemma Distribute(a: int, b: int, c: int)
    ensures a * (b + c) == a * b + a * c
  {
  }

  /** What one sub-set's records do to the metrics besides the two totals:
      UMI_LENGTH is taken from the first UMI-bearing read ever seen and then
      never changes, nothing outside the three per-read counters is written,
      and reads without a UMI change nothing at all. */
  lemma {:induction false} ReadLengthAccounting(acc: UmiAccumulator, records: seq<Read>, inferred: Umi)
    requires AccumulateReads(acc, records, inferred).Success?
    ensures var r := AccumulateReads(acc, records, inferred).value;
      && OnlyReadCountersChanged(acc.metrics, r.metrics)
      && (acc.haveSeenFirstRead ==> r.haveSeenFirstRead && r.metrics.umiLength == acc.metrics.umiLength)
      && (!acc.haveSeenFirstRead ==> (r.haveSeenFirstRead <==> FirstUmi(records).Some?))
      && (!acc.haveSeenFirstRead && FirstUmi(records).Some? ==> r.metrics.umiLength == |FirstUmi(records).value|)
      && (FirstUmi(records).None? ==> r == acc)
    decreases |records|
  {
    if |records| > 0 {
      var next := ReadStep(acc, records[0], inferred).value;
      ReadLengthAccounting(next, records[1..], inferred);
    }
  }

  /** Every UMI-bearing read adds UMI_LENGTH to TOTAL_UMI_BASES_OBSERVED. */
  lemma {:induction false} ReadBaseTotal(acc: UmiAccumulator, records: seq<Read>, inferred: Umi)
    requires AccumulateReads(acc, records, inferred).Success?
    ensures var r := AccumulateReads(acc, records, inferred).value;
      r.metrics.totalUmiBasesObserved
        == acc.metrics.totalUmiBasesObserved + r.metrics.umiLength * |ObservedUmis(records)|
    decreases |records|
  {
    if |records| > 0 {
      var rest := records[1..];
      var next := ReadStep(acc, records[0], inferred).value;
      var r := AccumulateReads(next, rest, inferred).value;
      assert AccumulateReads(acc, records, inferred).value == r;
      ReadBaseTotal(next, rest, inferred);
      var k := |ObservedUmis(rest)|;
      if records[0].observedUmi.Some? {
        ReadLengthAccounting(next, rest, inferred);
        assert r.metrics.umiLength == next.metrics.umiLength;
        assert |ObservedUmis(records)| == 1 + k;
        Distribute(r.metrics.umiLength, 1, k);
      } else {
        assert next == acc;
        assert |ObservedUmis(records)| == k;
      }
    }
  }

  /** Each UMI-bearing read adds the Hamming distance of its UMI to the
      inferred UMI to OBSERVED_BASE_ERRORS, so a sub-set adds the total of
      those distances, which is at most the UMI length per read. */
  lemma ReadErrorsBounded(acc: UmiAccumulator, records: seq<Read>, inferred: Umi)
    requires AccumulateReads(acc, records, inferred).Success?
    ensures var r := AccumulateReads(acc, records, inferred).value;
      && r.metrics.observedBaseErrors == acc.metrics.observedBaseErrors + ObservedErrors(records, inferred)
      && (UmisHaveLength(records, r.metrics.umiLength) ==>
            ObservedErrors(records, inferred) <= r.metrics.umiLength * |ObservedUmis(records)|)
  {
    var r := AccumulateReads(acc, records, inferred).value;
    if UmisHaveLength(records, r.metrics.umiLength) {
      ObservedErrorsBound(records, inferred, r.metrics.umiLength);
    }
  }

  /** A read's UMI differs from the inferred UMI in at most `n` positions when
      it has length `n`, so the records' total is at most `n` per UMI. */
  lemma {:induction false} ObservedErrorsBound(records: seq<Read>, inferred: Umi, n: nat)
    requires UmisHaveLength(records, n)
    ensures ObservedErrors(records, inferred) <= n * |ObservedUmis(records)|
    decreases |records|
  {
    if |records| > 0 {
      UmisHaveLengthTail(records, n);
      ObservedErrorsBound(records[1..], inferred, n);
      var k := |ObservedUmis(records[1..])|;
      match records[0].observedUmi
      case None =>
        assert ObservedUmis(records) == ObservedUmis(records[1..]);
      case Some(u) =>
        if |u| == |inferred| {
          Hamming.MismatchesBound(u, inferred);
        }
        assert |ObservedUmis(records)| == 1 + k;
        BoundStep(ReadErrors(records[0], inferred), ObservedErrors(records[1..], inferred), n, k);
    }
  }

  /** True when every UMI the records carry is `inferred`. */
  predicate AllAgree(records: seq<Read>, inferred: Umi) {
    forall i :: 0 <= i < |records| && records[i].observedUmi.Some? ==> records[i].observedUmi.value == inferred
  }

  /** When the UMIs have the inferred UMI's length, the records add no error
      exactly when every UMI they carry is the inferred UMI. */
  lemma {:induction false} ObservedErrorsZero(records: seq<Read>, inferred: Umi)
    requires UmisHaveLength(records, |inferred|)
    ensures ObservedErrors(records, inferred) == 0 <==> AllAgree(records, inferred)
    decreases |records|
  {
    if |records| > 0 {
      var rest := records[1..];
      UmisHaveLengthTail(records, |inferred|);
      ObservedErrorsZero(rest, inferred);
      var headAgrees := records[0].observedUmi.Some? ==> records[0].observedUmi.value == inferred;
      if records[0].observedUmi.Some? {
        Hamming.MismatchesZeroIffEqual(records[0].observedUmi.value, inferred);
      }
      assert ReadErrors(records[0], inferred) == 0 <==> headAgrees;
      if AllAgree(records, inferred) {
        forall i | 0 <= i < |rest| && rest[i].observedUmi.Some? ensures rest[i].observedUmi.value == inferred {
          assert rest[i] == records[i + 1];
        }
      }
      if headAgrees && AllAgree(rest, inferred) {
        forall i | 0 <= i < |records| && records[i].observedUmi.Some? ensures records[i].observedUmi.value == inferred {
          if i > 0 {
            assert records[i] == rest[i - 1];
          }
        }
      }
    }
  }

  /** Summed over sub-sets: at most `n` errors per observed UMI when every UMI
      has length `n`. */
  lemma {:induction false} ClusterErrorsBound(clusters: seq<Cluster>, n: nat)
    requires ClustersHaveLength(clusters, n)
    ensures ClusterErrors(clusters) <= n * |ClusterObservedUmis(clusters)|
    decreases |clusters|
  {
    if |clusters| > 0 {
      var c := clusters[0];
      assert UmisHaveLength(c.records, n);
      assert ClustersHaveLength(clusters[1..], n) by {
        forall i | 0 <= i < |clusters| - 1 ensures UmisHaveLength(clusters[1..][i].records, n) {
          assert clusters[1..][i] == clusters[i + 1];
        }
      }
      ObservedErrorsBound(c.records, c.inferredUmi, n);
      ClusterErrorsBound(clusters[1..], n);
      Distribute(n, |ObservedUmis(c.records)|, |ClusterObservedUmis(clusters[1..])|);
    }
  }

  lemma UmisHaveLengthTail(records: seq<Read>, n: nat)
    requires |records| > 0 && UmisHaveLength(records, n)
    ensures UmisHaveLength(records[1..], n)
    ensures records[0].observedUmi.Some? ==> |records[0].observedUmi.value| == n
  {
    var rest := records[1..];
    forall i | 0 <= i < |rest| && rest[i].observedUmi.Some?
      ensures |rest[i].observedUmi.value| == n
    {
      assert rest[i] == records[i + 1];
    }
  }

  /** One more read's errors, at most its length, keep the bound. */
  lemma BoundStep(d: int, e: int, len: nat, k: nat)
    requires d <= len && e <= len * k
    ensures d + e <= len * (1 + k)
  {
    Distribute(len, 1, k);
  }

  /** Every UMI-bearing read adds UMI_LENGTH to TOTAL_UMI_BASES_OBSERVED and a
      non-negative Hamming distance to OBSERVED_BASE_ERRORS; when every UMI has
      length UMI_LENGTH the errors added never exceed the bases added. */
  lemma ReadBaseAccounting(acc: UmiAccumulator, records: seq<Read>, inferred: Umi)
    requires AccumulateReads(acc, records, inferred).Success?
    ensures var r := AccumulateReads(acc, records, inferred).value;
      && r.metrics.totalUmiBasesObserved
           == acc.metrics.totalUmiBasesObserved + r.metrics.umiLength * |ObservedUmis(records)|
      && acc.metrics.observedBaseErrors <= r.metrics.observedBaseErrors
      && (UmisHaveLength(records, r.metrics.umiLength) ==>
            r.metrics.observedBaseErrors - acc.metrics.observedBaseErrors
              <= r.metrics.totalUmiBasesObserved - acc.metrics.totalUmiBasesObserved)
  {
    ReadBaseTotal(acc, records, inferred);
    ReadErrorsBounded(acc, records, inferred);
  }

  /** The histogram and length bookkeeping that holds of every state the
      iterator reaches from a fresh accumulator: both histograms hold one
      count per UMI-bearing read, and the base total is UMI_LENGTH per read. */
  predicate Consistent(acc: UmiAccumulator) {
    && |acc.observedUmis| == |acc.inferredUmis|
    && (!acc.haveSeenFirstRead ==> |acc.observedUmis| == 0)
    && acc.metrics.totalUmiBasesObserved == acc.metrics.umiLength * |acc.observedUmis|
  }

  lemma AccumulateReadsConsistent(acc: UmiAccumulator, records: seq<Read>, inferred: Umi)
    requires Consistent(acc)
    requires AccumulateReads(acc, records, inferred).Success?
    ensures Consistent(AccumulateReads(acc, records, inferred).value)
  {
    var r := AccumulateReads(acc, records, inferred).value;
    ReadLengthAccounting(acc, records, inferred);
    ReadBaseAccounting(acc, records, inferred);
    FirstUmiIffSomeUmi(records);
    var k := |ObservedUmis(records)|;
    InferredCopiesCount(inferred, k);
    ConsistentAfterReads(acc, r, k);
  }

  lemma InferredCopiesCount(inferred: Umi, k: nat)
    ensures |multiset{}[inferred := k]| == k
  {
  }

  /** The arithmetic behind `AccumulateReadsConsistent`, for `k` UMI-bearing reads. */
  lemma ConsistentAfterReads(acc: UmiAccumulator, r: UmiAccumulator, k: nat)
    requires Consistent(acc)
    requires |r.observedUmis| == |acc.observedUmis| + k
    requires |r.inferredUmis| == |acc.inferredUmis| + k
    requires r.metrics.totalUmiBasesObserved == acc.metrics.totalUmiBasesObserved + r.metrics.umiLength * k
    requires acc.haveSeenFirstRead ==> r.haveSeenFirstRead && r.metrics.umiLength == acc.metrics.umiLength
    requires !r.haveSeenFirstRead ==> k == 0
    ensures Consistent(r)
  {
    if acc.haveSeenFirstRead {
      Distribute(r.metrics.umiLength, |acc.observedUmis|, k);
    }
  }

  lemma {:induction false} AccumulateClustersConsistent(acc: UmiAccumulator, clusters: seq<Cluster>)
    requires Consistent(acc)
    requires AccumulateClusters(acc, clusters).Success?
    ensures Consistent(AccumulateClusters(acc, clusters).value)
    decreases |clusters|
  {
    if |clusters| > 0 {
      var afterReads := AccumulateReads(acc, clusters[0].records, clusters[0].inferredUmi).value;
      AccumulateReadsConsistent(acc, clusters[0].records, clusters[0].inferredUmi);
      AccumulateClustersConsistent(afterReads.(duplicateSetsWithUmi := afterReads.duplicateSetsWithUmi + 1), clusters[1..]);
    }
  }

  /** `Next` keeps the bookkeeping consistent. */
  lemma NextConsistent(it: UmiIterator, join: Clusterer)
    requires Consistent(it.acc)
    requires Next(it, join).Success?
    ensures Consistent(Next(it, join).value.1.acc)
  {
    if |it.buffer| == 0 {
      AccumulateClustersConsistent(it.acc, join(it.upstream[0]));
    }
  }

  /** Both histograms always hold the same number of counts. */
  lemma {:induction false} HistogramTotalsAgree(clusters: seq<Cluster>)
    ensures |ClusterObservedUmis(clusters)| == |ClusterInferredUmis(clusters)|
    decreases |clusters|
  {
    if |clusters| > 0 {
      HistogramTotalsAgree(clusters[1..]);
      var c := clusters[0];
      assert |multiset{}[c.inferredUmi := |ObservedUmis(c.records)|]| == |ObservedUmis(c.records)|;
    }
  }

  lemma {:induction false} ClusterUmisAppend(a: seq<Cluster>, b: seq<Cluster>)
    ensures ClusterObservedUmis(a + b) == ClusterObservedUmis(a) + ClusterObservedUmis(b)
    ensures ClusterInferredUmis(a + b) == ClusterInferredUmis(a) + ClusterInferredUmis(b)
    ensures ClusterErrors(a + b) == ClusterErrors(a) + ClusterErrors(b)
    decreases |a|
  {
    if |a| == 0 {
      assert a + b == b;
    } else {
      assert (a + b)[1..] == a[1..] + b;
      ClusterUmisAppend(a[1..], b);
    }
  }

  // ---------------------------------------------------------------------------
  // close
  // ---------------------------------------------------------------------------

  lemma {:induction false} DistinctAtMostCount(h: multiset<Umi>)
    ensures |Distinct(h)| <= |h|
    ensures |Distinct(h)| == 0 <==> |h| == 0
    decreases |h|
  {
    if |h| > 0 {
      var u :| u in h;
      var rest := h[u := 0];
      DistinctAtMostCount(rest);
      assert Distinct(h) == Distinct(rest) + {u};
      assert |rest| < |h| by {
        assert h == rest + multiset{}[u := h[u]];
      }
    } else {
      assert Distinct(h) == {};
    }
  }

  /** At a successful close the unique-UMI counts are the numbers of
      distinct keys of the two histograms; each is at least one (a successful
      close saw a UMI) and at most the number of UMI-bearing reads. */
  lemma CloseUniqueCounts(it: UmiIterator)
    requires Consistent(it.acc)
    ensures Close(it).Success? ==> Close(it).value.acc.metrics.observedUniqueUmis == |Distinct(it.acc.observedUmis)|
    ensures Close(it).Success? ==> Close(it).value.acc.metrics.inferredUniqueUmis == |Distinct(it.acc.inferredUmis)|
    ensures Close(it).Success? ==> 1 <= Close(it).value.acc.metrics.observedUniqueUmis <= |it.acc.observedUmis|
    ensures Close(it).Success? ==> 1 <= Close(it).value.acc.metrics.inferredUniqueUmis <= |it.acc.observedUmis|
  {
    DistinctAtMostCount(it.acc.observedUmis);
    DistinctAtMostCount(it.acc.inferredUmis);
  }

  /** Closing twice leaves the same state as closing once. */
  lemma CloseIdempotent(it: UmiIterator)
    requires Close(it).Success?
    ensures Close(Close(it).value) == Close(it)
  {
  }

  // ---------------------------------------------------------------------------
  // Sequences of calls
  // ---------------------------------------------------------------------------

  datatype Call = CallHasNext | CallNext | CallClose

  /** The state after one call on the iterator (the value `next` returns is
      dropped here). */
  function Step(it: UmiIterator, call: Call, join: Clusterer): Result<UmiIterator, IteratorError> {
    match call
    case CallHasNext => Success(HasNext(it).1)
    case CallClose => Close(it)
    case CallNext =>
      match Next(it, join)
      case Success(emitted) => Success(emitted.1)
      case Failure(e) => Failure(e)
  }

  function Run(it: UmiIterator, calls: seq<Call>, join: Clusterer): Result<UmiIterator, IteratorError>
    decreases |calls|
  {
    if |calls| == 0 then Success(it)
    else
      var next :- Step(it, calls[0], join);
      Run(next, calls[1..], join)
  }

  /** Nothing reopens a closed iterator: whatever is called afterwards,
      `hasNext` answers false. */
  lemma {:induction false} ClosedStaysClosed(it: UmiIterator, calls: seq<Call>, join: Clusterer)
    requires !it.isOpen
    ensures Run(it, calls, join).Success? ==> !Run(it, calls, join).value.isOpen
    ensures Run(it, calls, join).Success? ==> !HasNext(Run(it, calls, join).value).0
    decreases |calls|
  {
    if |calls| > 0 {
      var s := Step(it, calls[0], join);
      if s.Success? {
        ClosedStaysClosed(s.value, calls[1..], join);
      }
    }
  }

  /** Once `hasNext` has answered false, because the iterator was closed or
      because buffer and upstream were both exhausted, it answers false ever
      after. */
  lemma ExhaustionIsSticky(it: UmiIterator, calls: seq<Call>, join: Clusterer)
    requires !HasNext(it).0
    ensures Run(HasNext(it).1, calls, join).Success? ==> !HasNext(Run(HasNext(it).1, calls, join).value).0
  {
    ClosedStaysClosed(HasNext(it).1, calls, join);
  }
}

=== FILE: umi_metrics.dfy ===
/** The `UmiMetrics` record written by the UMI-aware duplicate-set iterator:
    its integer counters, the estimated UMI base quality (kept symbolically)
    and the two histogram fields with their setters and getters.
    The `double` fields that nothing here computes exactly (effective lengths,
    UMI avoidance) are not part of this model.
 */
module UmiMetricsRecord {
  import opened Wrappers

  /** A `Histogram<Double>` as stored by the record: bin id to bin value.
      The record only stores and returns it, so exact reals are faithful. */
  type DoubleHistogram = map<real, real>

  /** `ESTIMATED_BASE_QUALITY_OF_UMIS`: either the Java default `0.0`, or the
      Phred value `-10 * log10(errors / bases)` of the stored ratio, kept as
      the ratio itself because the model has no logarithm. */
  datatype BaseQualityEstimate = DefaultZero | PhredOf(errors: int, bases: int)

  datatype UmiMetrics = UmiMetrics(
    umiLength: nat,
    observedUniqueUmis: int,
    inferredUniqueUmis: int,
    observedBaseErrors: int,
    totalUmiBasesObserved: int,
    duplicateSetsWithoutUmi: int,
    duplicateSetsWithUmi: int,
    estimatedBaseQuality: BaseQualityEstimate,
    duplicateSetsBrokenByUmi: Option<DoubleHistogram>,
    effectiveUmiLengthDistribution: Option<DoubleHistogram>)

  /** The fields `computeMetrics` and the histogram setters never touch. */
  predicate SameCounters(a: UmiMetrics, b: UmiMetrics) {
    && a.umiLength == b.umiLength
    && a.observedUniqueUmis == b.observedUniqueUmis
    && a.inferredUniqueUmis == b.inferredUniqueUmis
    && a.observedBaseErrors == b.observedBaseErrors
    && a.totalUmiBasesObserved == b.totalUmiBasesObserved
    && a.duplicateSetsWithoutUmi == b.duplicateSetsWithoutUmi
    && a.duplicateSetsWithUmi == b.duplicateSetsWithUmi
  }

  /** A freshly constructed record: every counter starts at zero, the
      histogram references are null. */
  function NewUmiMetrics(): (m: UmiMetrics)
    ensures m.umiLength == 0
    ensures m.observedUniqueUmis == 0 && m.inferredUniqueUmis == 0
    ensures m.observedBaseErrors == 0 && m.totalUmiBasesObserved == 0
    ensures m.duplicateSetsWithoutUmi == 0 && m.duplicateSetsWithUmi == 0
    ensures m.duplicateSetsBrokenByUmi.None? && m.effectiveUmiLengthDistribution.None?
  {
    UmiMetrics(0, 0, 0, 0, 0, 0, 0, DefaultZero, None, None)
  }

  /** `computeMetrics`: derives the estimated base quality from the error
      and base counters and writes nothing else. */
  function ComputeMetrics(m: UmiMetrics): (r: UmiMetrics)
    ensures r.estimatedBaseQuality == PhredOf(m.observedBaseErrors, m.totalUmiBasesObserved)
    ensures SameCounters(r, m)
    ensures r.duplicateSetsBrokenByUmi == m.duplicateSetsBrokenByUmi
    ensures r.effectiveUmiLengthDistribution == m.effectiveUmiLengthDistribution
  {
    m.(estimatedBaseQuality := PhredOf(m.observedBaseErrors, m.totalUmiBasesObserved))
  }

  function SetDuplicateSetsBrokenByUmi(m: UmiMetrics, h: DoubleHistogram): (r: UmiMetrics)
    ensures SameCounters(r, m)
    ensures r.estimatedBaseQuality == m.estimatedBaseQuality
    ensures r.effectiveUmiLengthDistribution == m.effectiveUmiLengthDistribution
    ensures GetDuplicateSetsBrokenByUmi(r) == Some(h)
  {
    m.(duplicateSetsBrokenByUmi := Some(h))
  }

  function SetEffectiveUmiLengthDistribution(m: UmiMetrics, h: DoubleHistogram): (r: UmiMetrics)
    ensures SameCounters(r, m)
    ensures r.estimatedBaseQuality == m.estimatedBaseQuality
    ensures r.duplicateSetsBrokenByUmi == m.duplicateSetsBrokenByUmi
    ensures GetEffectiveUmiLengthDistribution(r) == Some(h)
  {
    m.(effectiveUmiLengthDistribution := Some(h))
  }

  function GetDuplicateSetsBrokenByUmi(m: UmiMetrics): Option<DoubleHistogram> {
    m.duplicateSetsBrokenByUmi
  }

  function GetEffectiveUmiLengthDistribution(m: UmiMetrics): Option<DoubleHistogram> {
    m.effectiveUmiLengthDistribution
  }

  /** A getter returns what its setter last stored, whatever the other setter
      and `computeMetrics` did afterwards. */
  lemma SetterGetterRoundTrip(m: UmiMetrics, a: DoubleHistogram, b: DoubleHistogram)
    ensures GetDuplicateSetsBrokenByUmi(
              ComputeMetrics(SetEffectiveUmiLengthDistribution(SetDuplicateSetsBrokenByUmi(m, a), b))) == Some(a)
    ensures GetEffectiveUmiLengthDistribution(
              ComputeMetrics(SetDuplicateSetsBrokenByUmi(SetEffectiveUmiLengthDistribution(m, b), a))) == Some(b)
  {
  }
}

=== FILE: umi_run.dfy ===
/** Whole runs of the UMI-aware iterator: a consumer draining it with
    `hasNext`/`next`, and a run from a fresh iterator to `close`. The drain
    invariant relates what has been emitted to what was pending at the start
    and to the counters, histograms and error total accumulated so far.
 */
module UmiRun {
  import opened Wrappers
  import opened UmiMetricsRecord
  import opened UmiIterator

  // ---------------------------------------------------------------------------
  // Draining the iterator
  // ---------------------------------------------------------------------------

  /** What stays true while a consumer drains `start`: the sub-sets emitted
      so far followed by what is still pending are what was pending at the
      start, and the counters and histograms account for exactly the upstream
      sets consumed and the sub-sets buffered so far. */
  predicate DrainInvariant(start: UmiIterator, cur: UmiIterator, emitted: seq<Cluster>, join: Clusterer) {
    && cur.isOpen
    && cur.maxEditDistanceToJoin == start.maxEditDistanceToJoin
    && emitted + Pending(cur, join) == Pending(start, join)
    && DrainCounters(start, cur, emitted)
    && DrainHistograms(start, cur, emitted)
    && (Consistent(start.acc) ==> Consistent(cur.acc))
  }

  predicate DrainCounters(start: UmiIterator, cur: UmiIterator, emitted: seq<Cluster>) {
    && cur.acc.duplicateSetsWithoutUmi + |cur.upstream| == start.acc.duplicateSetsWithoutUmi + |start.upstream|
    && cur.acc.duplicateSetsWithUmi + |start.buffer| == start.acc.duplicateSetsWithUmi + |emitted| + |cur.buffer|
    && cur.acc.metrics.observedBaseErrors + ClusterErrors(start.buffer)
         == start.acc.metrics.observedBaseErrors + ClusterErrors(emitted + cur.buffer)
  }

  predicate DrainHistograms(start: UmiIterator, cur: UmiIterator, emitted: seq<Cluster>) {
    && cur.acc.observedUmis + ClusterObservedUmis(start.buffer)
         == start.acc.observedUmis + ClusterObservedUmis(emitted + cur.buffer)
    && cur.acc.inferredUmis + ClusterInferredUmis(start.buffer)
         == start.acc.inferredUmis + ClusterInferredUmis(emitted + cur.buffer)
  }

  lemma DrainInvariantStep(start: UmiIterator, cur: UmiIterator, emitted: seq<Cluster>, join: Clusterer)
    requires DrainInvariant(start, cur, emitted, join)
    requires Next(cur, join).Success?
    ensures DrainInvariant(start, Next(cur, join).value.1, emitted + [Next(cur, join).value.0], join)
  {
    if |cur.buffer| > 0 {
      BufferedStep(start, cur, emitted, join);
    } else {
      RefillStep(start, cur, emitted, join);
    }
  }

  lemma BufferedStep(start: UmiIterator, cur: UmiIterator, emitted: seq<Cluster>, join: Clusterer)
    requires DrainInvariant(start, cur, emitted, join)
    requires |cur.buffer| > 0
    ensures DrainInvariant(start, Next(cur, join).value.1, emitted + [Next(cur, join).value.0], join)
  {
    var c := cur.buffer[0];
    var n := cur.(buffer := cur.buffer[1..]);
    assert Next(cur, join) == Success((c, n));
    BufferedInvariant(start, cur, n, emitted, c, join);
  }

  lemma BufferedInvariant(start: UmiIterator, cur: UmiIterator, n: UmiIterator, emitted: seq<Cluster>,
                          c: Cluster, join: Clusterer)
    requires DrainInvariant(start, cur, emitted, join)
    requires cur.buffer == [c] + n.buffer
    requires n == cur.(buffer := n.buffer)
    ensures DrainInvariant(start, n, emitted + [c], join)
  {
    assert emitted + cur.buffer == (emitted + [c]) + n.buffer;
    Regroup(emitted, c, n.buffer, Flatten(join, n.upstream));
  }

  /** What a refilling `next` does, in terms of the sub-sets it produced. */
  lemma RefillShape(cur: UmiIterator, join: Clusterer)
    requires |cur.buffer| == 0
    requires Next(cur, join).Success?
    ensures var c := Next(cur, join).value.0;
      var n := Next(cur, join).value.1;
      var produced := join(cur.upstream[0]);
      && produced == [c] + n.buffer
      && n.isOpen == cur.isOpen
      && n.maxEditDistanceToJoin == cur.maxEditDistanceToJoin
      && Flatten(join, cur.upstream) == produced + Flatten(join, n.upstream)
      && n.acc.duplicateSetsWithoutUmi == cur.acc.duplicateSetsWithoutUmi + 1
      && |n.upstream| + 1 == |cur.upstream|
      && n.acc.duplicateSetsWithUmi == cur.acc.duplicateSetsWithUmi + |produced|
      && n.acc.metrics.observedBaseErrors == cur.acc.metrics.observedBaseErrors + ClusterErrors(produced)
      && n.acc.observedUmis == cur.acc.observedUmis + ClusterObservedUmis(produced)
      && n.acc.inferredUmis == cur.acc.inferredUmis + ClusterInferredUmis(produced)
      && (Consistent(cur.acc) ==> Consistent(n.acc))
  {
    if Consistent(cur.acc) {
      NextConsistent(cur, join);
    }
  }

  lemma RefillStep(start: UmiIterator, cur: UmiIterator, emitted: seq<Cluster>, join: Clusterer)
    requires DrainInvariant(start, cur, emitted, join)
    requires |cur.buffer| == 0
    requires Next(cur, join).Success?
    ensures DrainInvariant(start, Next(cur, join).value.1, emitted + [Next(cur, join).value.0], join)
  {
    RefillShape(cur, join);
    var c := Next(cur, join).value.0;
    var n := Next(cur, join).value.1;
    RefillInvariant(start, cur, n, emitted, c, join(cur.upstream[0]), join);
  }

  lemma RefillInvariant(start: UmiIterator, cur: UmiIterator, n: UmiIterator, emitted: seq<Cluster>,
                        c: Cluster, produced: seq<Cluster>, join: Clusterer)
    requires DrainInvariant(start, cur, emitted, join)
    requires |cur.buffer| == 0
    requires produced == [c] + n.buffer
    requires n.isOpen == cur.isOpen
    requires n.maxEditDistanceToJoin == cur.maxEditDistanceToJoin
    requires Flatten(join, cur.upstream) == produced + Flatten(join, n.upstream)
    requires n.acc.duplicateSetsWithoutUmi == cur.acc.duplicateSetsWithoutUmi + 1
    requires |n.upstream| + 1 == |cur.upstream|
    requires n.acc.duplicateSetsWithUmi == cur.acc.duplicateSetsWithUmi + |produced|
    requires n.acc.metrics.observedBaseErrors == cur.acc.metrics.observedBaseErrors + ClusterErrors(produced)
    requires n.acc.observedUmis == cur.acc.observedUmis + ClusterObservedUmis(produced)
    requires n.acc.inferredUmis == cur.acc.inferredUmis + ClusterInferredUmis(produced)
    requires Consistent(cur.acc) ==> Consistent(n.acc)
    ensures DrainInvariant(start, n, emitted + [c], join)
  {
    var rest := Flatten(join, n.upstream);
    assert Pending(cur, join) == produced + rest by {
      assert cur.buffer + Flatten(join, cur.upstream) == Flatten(join, cur.upstream);
    }
    Regroup(emitted, c, n.buffer, rest);
    RefillCounters(start, cur, n, emitted, c, produced);
    RefillHistograms(start, cur, n, emitted, c, produced);
  }

  lemma RefillCounters(start: UmiIterator, cur: UmiIterator, n: UmiIterator, emitted: seq<Cluster>,
                       c: Cluster, produced: seq<Cluster>)
    requires DrainCounters(start, cur, emitted)
    requires |cur.buffer| == 0
    requires produced == [c] + n.buffer
    requires |n.upstream| + 1 == |cur.upstream|
    requires n.acc.duplicateSetsWithoutUmi == cur.acc.duplicateSetsWithoutUmi + 1
    requires n.acc.duplicateSetsWithUmi == cur.acc.duplicateSetsWithUmi + |produced|
    requires n.acc.metrics.observedBaseErrors == cur.acc.metrics.observedBaseErrors + ClusterErrors(produced)
    ensures DrainCounters(start, n, emitted + [c])
  {
    assert emitted + cur.buffer == emitted;
    assert (emitted + [c]) + n.buffer == emitted + produced;
    ClusterUmisAppend(emitted, produced);
  }

  lemma RefillHistograms(start: UmiIterator, cur: UmiIterator, n: UmiIterator, emitted: seq<Cluster>,
                         c: Cluster, produced: seq<Cluster>)
    requires DrainHistograms(start, cur, emitted)
    requires |cur.buffer| == 0
    requires produced == [c] + n.buffer
    requires n.acc.observedUmis == cur.acc.observedUmis + ClusterObservedUmis(produced)
    requires n.acc.inferredUmis == cur.acc.inferredUmis + ClusterInferredUmis(produced)
    ensures DrainHistograms(start, n, emitted + [c])
  {
    assert emitted + cur.buffer == emitted;
    assert (emitted + [c]) + n.buffer == emitted + produced;
    ClusterUmisAppend(emitted, produced);
    ShiftHistogram(cur.acc.observedUmis, ClusterObservedUmis(start.buffer), start.acc.observedUmis,
                   ClusterObservedUmis(emitted), ClusterObservedUmis(produced),
                   n.acc.observedUmis, ClusterObservedUmis(emitted + produced));
    ShiftHistogram(cur.acc.inferredUmis, ClusterInferredUmis(start.buffer), start.acc.inferredUmis,
                   ClusterInferredUmis(emitted), ClusterInferredUmis(produced),
                   n.acc.inferredUmis, ClusterInferredUmis(emitted + produced));
  }

  /** Counting the same new UMIs on both sides keeps a histogram balance. */
  lemma ShiftHistogram(cur: multiset<Umi>, pending: multiset<Umi>, start: multiset<Umi>,
                       seen: multiset<Umi>, added: multiset<Umi>, next: multiset<Umi>, seenNext: multiset<Umi>)
    requires cur + pending == start + seen
    requires next == cur + added && seenNext == seen + added
    ensures next + pending == start + seenNext
  {
    AddToBothSides(cur, pending, added, start, seen);
  }

  lemma Regroup(a: seq<Cluster>, x: Cluster, b: seq<Cluster>, rest: seq<Cluster>)
    ensures (a + [x]) + (b + rest) == a + (([x] + b) + rest)
  {
  }

  lemma AddToBothSides(a: multiset<Umi>, b: multiset<Umi>, c: multiset<Umi>, d: multiset<Umi>, e: multiset<Umi>)
    requires a + b == d + e
    ensures (a + c) + b == d + (e + c)
  {
    calc {
      (a + c) + b;
      (a + b) + c;
      (d + e) + c;
      d + (e + c);
    }
  }

  // ---------------------------------------------------------------------------
  // When a drain succeeds
  // ---------------------------------------------------------------------------

  /** The clusterer splits every set of `sets` into at least one sub-set, and
      every UMI of each sub-set has its inferred UMI's length. */
  predicate ClustersWell(join: Clusterer, sets: seq<DuplicateSet>) {
    forall i :: 0 <= i < |sets| ==> join(sets[i]) != [] && ClustersMatchInferred(join(sets[i]))
  }

  /** UMI_LENGTH no longer limits the edit distance: the distance is not
      positive, or UMI_LENGTH is fixed and at least as large. */
  predicate LengthSettled(it: UmiIterator) {
    it.maxEditDistanceToJoin <= 0 || (it.acc.haveSeenFirstRead && it.maxEditDistanceToJoin <= it.acc.metrics.umiLength)
  }

  /** Draining `it` cannot fail: every upstream set clusters well, and
      UMI_LENGTH is settled or is fixed, large enough, by the first UMI of the
      next upstream set. */
  predicate DrainSafe(it: UmiIterator, join: Clusterer) {
    && ClustersWell(join, it.upstream)
    && (|| LengthSettled(it)
        || (&& |it.upstream| > 0 && ClusterFirstUmi(join(it.upstream[0])).Some?
            && it.maxEditDistanceToJoin <= ReachedUmiLength(it.acc, join(it.upstream[0]))))
  }

  /** What a drain of `start` has learnt by the time it reaches `cur`: the
      upstream left is a suffix of the original, every set consumed so far
      clustered well, the first refill found UMI_LENGTH large enough, nothing
      was accounted before the first set was consumed, and a safe start
      stays safe. */
  predicate DrainTrack(start: UmiIterator, cur: UmiIterator, join: Clusterer) {
    && DrainProgress(start, cur, join)
    && (DrainSafe(start, join) ==> DrainSafe(cur, join))
  }

  /** The part of DrainTrack that does not depend on the start being safe. */
  predicate DrainProgress(start: UmiIterator, cur: UmiIterator, join: Clusterer) {
    && |cur.upstream| <= |start.upstream|
    && cur.upstream == start.upstream[|start.upstream| - |cur.upstream|..]
    && cur.maxEditDistanceToJoin == start.maxEditDistanceToJoin
    && ClustersWell(join, start.upstream[..|start.upstream| - |cur.upstream|])
    && (|cur.upstream| < |start.upstream| && |start.buffer| == 0 ==>
          start.maxEditDistanceToJoin <= ReachedUmiLength(start.acc, join(start.upstream[0])))
    && (|cur.upstream| == |start.upstream| ==> cur.acc == start.acc)
  }

  lemma ClustersWellTail(join: Clusterer, sets: seq<DuplicateSet>)
    requires |sets| > 0 && ClustersWell(join, sets)
    ensures ClustersWell(join, sets[1..])
  {
    forall i | 0 <= i < |sets| - 1 ensures join(sets[1..][i]) != [] && ClustersMatchInferred(join(sets[1..][i])) {
      assert sets[1..][i] == sets[i + 1];
    }
  }

  lemma ClustersWellExtend(join: Clusterer, sets: seq<DuplicateSet>, k: nat)
    requires k < |sets| && ClustersWell(join, sets[..k])
    requires join(sets[k]) != [] && ClustersMatchInferred(join(sets[k]))
    ensures ClustersWell(join, sets[..k + 1])
  {
    var longer := sets[..k + 1];
    var shorter := sets[..k];
    forall i | 0 <= i < |longer| ensures join(longer[i]) != [] && ClustersMatchInferred(join(longer[i])) {
      if i < k {
        assert longer[i] == shorter[i];
      }
    }
  }

  /** From a safe state with something left, `next` succeeds and the state
      stays safe. */
  lemma DrainSafeNext(cur: UmiIterator, join: Clusterer)
    requires DrainSafe(cur, join) && (|cur.buffer| > 0 || |cur.upstream| > 0)
    ensures Next(cur, join).Success? && DrainSafe(Next(cur, join).value.1, join)
  {
    if |cur.buffer| == 0 {
      assert join(cur.upstream[0]) != [] && ClustersMatchInferred(join(cur.upstream[0]));
      ClustersWellTail(join, cur.upstream);
    }
  }

  lemma DrainTrackStep(start: UmiIterator, cur: UmiIterator, join: Clusterer)
    requires DrainTrack(start, cur, join) && HasNext(cur).0 && Next(cur, join).Success?
    ensures DrainTrack(start, Next(cur, join).value.1, join)
  {
    DrainProgressStep(start, cur, Next(cur, join).value.1, join);
    if DrainSafe(start, join) {
      DrainSafeNext(cur, join);
    }
  }

  /** One successful `next` keeps DrainProgress: stated over the facts
      `next` ensures about its successor `n`. */
  lemma DrainProgressStep(start: UmiIterator, cur: UmiIterator, n: UmiIterator, join: Clusterer)
    requires DrainProgress(start, cur, join)
    requires n.maxEditDistanceToJoin == cur.maxEditDistanceToJoin
    requires |cur.buffer| > 0 ==> n.upstream == cur.upstream && n.acc == cur.acc
    requires |cur.buffer| == 0 ==>
               && |cur.upstream| > 0 && n.upstream == cur.upstream[1..]
               && join(cur.upstream[0]) != [] && ClustersMatchInferred(join(cur.upstream[0]))
               && cur.maxEditDistanceToJoin <= ReachedUmiLength(cur.acc, join(cur.upstream[0]))
    ensures DrainProgress(start, n, join)
  {
    if |cur.buffer| == 0 {
      RefillProgress(start, cur, n, join);
    }
  }

  /** The refill case of DrainProgressStep: `n` has consumed one more
      upstream set, which clustered well. */
  lemma RefillProgress(start: UmiIterator, cur: UmiIterator, n: UmiIterator, join: Clusterer)
    requires DrainProgress(start, cur, join)
    requires n.maxEditDistanceToJoin == cur.maxEditDistanceToJoin
    requires |cur.upstream| > 0 && n.upstream == cur.upstream[1..]
    requires join(cur.upstream[0]) != [] && ClustersMatchInferred(join(cur.upstream[0]))
    requires |cur.upstream| == |start.upstream| && |start.buffer| == 0 ==>
               cur.maxEditDistanceToJoin <= ReachedUmiLength(start.acc, join(start.upstream[0]))
    ensures DrainProgress(start, n, join)
  {
    var k := |start.upstream| - |cur.upstream|;
    assert cur.upstream[0] == start.upstream[k];
    assert n.upstream == start.upstream[k + 1..];
    ClustersWellExtend(join, start.upstream, k);
  }

  /** A failing `next` during a drain points at the upstream set that caused
      it, and shows the start was not safe. */
  lemma DrainFailure(start: UmiIterator, cur: UmiIterator, join: Clusterer)
    requires DrainTrack(start, cur, join) && HasNext(cur).0 && Next(cur, join).Failure?
    ensures Next(cur, join).error == NoSuchElement ==>
              exists i :: 0 <= i < |start.upstream| && join(start.upstream[i]) == []
    ensures Next(cur, join).error == UmiLengthMismatch ==>
              exists i :: 0 <= i < |start.upstream| && !ClustersMatchInferred(join(start.upstream[i]))
    ensures !DrainSafe(start, join)
  {
    var k := |start.upstream| - |cur.upstream|;
    assert |cur.buffer| == 0 && |cur.upstream| > 0;
    assert cur.upstream[0] == start.upstream[k];
    if DrainSafe(start, join) {
      DrainSafeNext(cur, join);
    }
  }

  /** What a drain of the open iterator `it` that ends in `final` has done:
      it emitted the buffer followed by the clusterer's output for each
      upstream set in order, consumed everything, counted every upstream set
      in DUPLICATE_SETS_WITHOUT_UMI, and counted every emitted sub-set and its
      reads in DUPLICATE_SETS_WITH_UMI, the histograms and
      OBSERVED_BASE_ERRORS; every upstream set clustered well, the first
      refill found UMI_LENGTH large enough, and a safe start ends with
      UMI_LENGTH settled. */
  predicate DrainedFrom(it: UmiIterator, emitted: seq<Cluster>, final: UmiIterator, join: Clusterer) {
    DrainedCounts(it, emitted, final, join) && DrainedChecks(it, final, join)
  }

  /** The emitted sub-sets and the counters of a finished drain. */
  predicate DrainedCounts(it: UmiIterator, emitted: seq<Cluster>, final: UmiIterator, join: Clusterer) {
    && emitted == Pending(it, join)
    && final.buffer == [] && final.upstream == []
    && final.acc.duplicateSetsWithoutUmi == it.acc.duplicateSetsWithoutUmi + |it.upstream|
    && final.acc.duplicateSetsWithUmi + |it.buffer| == it.acc.duplicateSetsWithUmi + |emitted|
    && final.acc.observedUmis + ClusterObservedUmis(it.buffer)
         == it.acc.observedUmis + ClusterObservedUmis(emitted)
    && final.acc.inferredUmis + ClusterInferredUmis(it.buffer)
         == it.acc.inferredUmis + ClusterInferredUmis(emitted)
    && final.acc.metrics.observedBaseErrors + ClusterErrors(it.buffer)
         == it.acc.metrics.observedBaseErrors + ClusterErrors(emitted)
  }

  /** What a finished drain shows about the upstream sets and UMI_LENGTH. */
  predicate DrainedChecks(it: UmiIterator, final: UmiIterator, join: Clusterer) {
    && ClustersWell(join, it.upstream)
    && (|it.buffer| == 0 && |it.upstream| > 0 ==>
          it.maxEditDistanceToJoin <= ReachedUmiLength(it.acc, join(it.upstream[0])))
    && (|it.upstream| == 0 ==> final.acc == it.acc)
    && (DrainSafe(it, join) ==> LengthSettled(final))
  }

  /** A drain that finds nothing left has done what DrainedFrom says. */
  lemma DrainExit(it: UmiIterator, cur: UmiIterator, emitted: seq<Cluster>, join: Clusterer)
    requires DrainInvariant(it, cur, emitted, join) && DrainTrack(it, cur, join) && !HasNext(cur).0
    ensures DrainedFrom(it, emitted, HasNext(cur).1, join)
  {
    DrainExitCounts(it, cur, emitted, join);
    DrainExitChecks(it, cur, join);
  }

  lemma DrainExitCounts(it: UmiIterator, cur: UmiIterator, emitted: seq<Cluster>, join: Clusterer)
    requires DrainInvariant(it, cur, emitted, join) && !HasNext(cur).0
    ensures DrainedCounts(it, emitted, HasNext(cur).1, join)
  {
    assert Pending(cur, join) == [];
    assert emitted + cur.buffer == emitted;
  }

  lemma DrainExitChecks(it: UmiIterator, cur: UmiIterator, join: Clusterer)
    requires DrainTrack(it, cur, join) && cur.isOpen && !HasNext(cur).0
    ensures DrainedChecks(it, HasNext(cur).1, join)
  {
    assert it.upstream[..|it.upstream| - |cur.upstream|] == it.upstream;
  }

  /** A consumer that pulls with `hasNext`/`next` until `hasNext` answers
      false. It sees exactly the buffered sub-sets followed by the clusterer's
      output for each upstream set in order, and the counters account for
      every upstream set and every emitted sub-set. */
  method Drain(it: UmiIterator, join: Clusterer) returns (emitted: seq<Cluster>, last: Result<UmiIterator, IteratorError>)
    ensures !it.isOpen ==> emitted == [] && last == Success(it)
    ensures last.Failure? ==> last.error != BufferNotEmpty && last.error != EmptyGiniHistogram
    ensures last.Success? ==> !HasNext(last.value).0 && !last.value.isOpen
    ensures last.Success? ==> last.value.maxEditDistanceToJoin == it.maxEditDistanceToJoin
    ensures it.isOpen && last.Success? ==> DrainedFrom(it, emitted, last.value, join)
    ensures last.Success? && Consistent(it.acc) ==> Consistent(last.value.acc)
    ensures last.Failure? ==> last.error == NoSuchElement || last.error == UmiLengthMismatch || last.error.IllegalBinomial?
    ensures last.Failure? && last.error == NoSuchElement ==>
              exists i :: 0 <= i < |it.upstream| && join(it.upstream[i]) == []
    ensures last.Failure? && last.error == UmiLengthMismatch ==>
              exists i :: 0 <= i < |it.upstream| && !ClustersMatchInferred(join(it.upstream[i]))
    ensures last.Failure? && last.error.IllegalBinomial? ==>
              last.error.k == last.error.n + 1 && it.maxEditDistanceToJoin > last.error.n
    ensures DrainSafe(it, join) ==> last.Success?
  {
    if !it.isOpen {
      return [], Success(it);
    }
    var cur := it;
    emitted := [];
    assert emitted + cur.buffer == it.buffer;
    assert it.upstream[|it.upstream| - |cur.upstream|..] == it.upstream;
    while true
      invariant DrainInvariant(it, cur, emitted, join)
      invariant DrainTrack(it, cur, join)
      decreases |cur.upstream|, |cur.buffer|
    {
      var probe := HasNext(cur);
      if !probe.0 {
        DrainExit(it, cur, emitted, join);
        return emitted, Success(probe.1);
      }
      var step := Next(cur, join);
      if step.Failure? {
        DrainFailure(it, cur, join);
        return emitted, Failure(step.error);
      }
      DrainInvariantStep(it, cur, emitted, join);
      DrainTrackStep(it, cur, join);
      emitted := emitted + [step.value.0];
      cur := step.value.1;
    }
  }

  /** The edit distance a fresh run admits: not positive, or within the
      length of the first UMI of the first upstream set's sub-sets, which
      fixes UMI_LENGTH before the first binomial is taken. */
  predicate FirstLengthAdmits(upstream: seq<DuplicateSet>, maxEditDistanceToJoin: int, join: Clusterer) {
    || maxEditDistanceToJoin <= 0
    || (&& |upstream| > 0 && ClusterFirstUmi(join(upstream[0])).Some?
        && maxEditDistanceToJoin <= |ClusterFirstUmi(join(upstream[0])).value|)
  }

  /** A whole run from a fresh iterator and fresh metrics to `close`. It
      succeeds exactly when every upstream set clusters into at least one
      sub-set whose UMIs have its inferred UMI's length, the first UMI fixes
      a UMI_LENGTH the edit distance does not exceed, and some UMI is seen;
      every failure names its cause. On success the metrics count every
      upstream set once in DUPLICATE_SETS_WITHOUT_UMI, every emitted sub-set
      once in DUPLICATE_SETS_WITH_UMI, the unique UMI counts are the distinct
      observed and inferred UMIs of the emitted reads, and
      OBSERVED_BASE_ERRORS is the total Hamming distance of the emitted
      reads' UMIs to their sub-sets' inferred UMIs, never more than
      TOTAL_UMI_BASES_OBSERVED when every UMI has the run's length. */
  method RefineAll(upstream: seq<DuplicateSet>, maxEditDistanceToJoin: int, join: Clusterer)
    returns (emitted: seq<Cluster>, metrics: Result<UmiMetrics, IteratorError>)
    ensures metrics.Success? <==> && ClustersWell(join, upstream)
                                  && FirstLengthAdmits(upstream, maxEditDistanceToJoin, join)
                                  && |ClusterObservedUmis(Flatten(join, upstream))| > 0
    ensures metrics.Failure? ==>
              || metrics.error == NoSuchElement || metrics.error == UmiLengthMismatch
              || metrics.error.IllegalBinomial? || metrics.error == EmptyGiniHistogram
    ensures metrics.Failure? && metrics.error == NoSuchElement ==>
              exists i :: 0 <= i < |upstream| && join(upstream[i]) == []
    ensures metrics.Failure? && metrics.error == UmiLengthMismatch ==>
              exists i :: 0 <= i < |upstream| && !ClustersMatchInferred(join(upstream[i]))
    ensures metrics.Failure? && metrics.error.IllegalBinomial? ==>
              metrics.error.k == metrics.error.n + 1 && maxEditDistanceToJoin > metrics.error.n
    ensures metrics.Failure? ==> metrics.error != BufferNotEmpty
    ensures metrics.Failure? && metrics.error == EmptyGiniHistogram ==>
              emitted == Flatten(join, upstream) && |ClusterObservedUmis(emitted)| == 0
    ensures metrics.Success? ==> maxEditDistanceToJoin <= metrics.value.umiLength && |ClusterObservedUmis(emitted)| > 0
    ensures metrics.Success? ==> metrics.value.observedBaseErrors == ClusterErrors(emitted)
    ensures metrics.Success? && ClustersHaveLength(emitted, metrics.value.umiLength) ==>
              metrics.value.observedBaseErrors <= metrics.value.totalUmiBasesObserved
    ensures metrics.Success? ==> emitted == Flatten(join, upstream)
    ensures metrics.Success? ==> metrics.value.duplicateSetsWithoutUmi == |upstream|
    ensures metrics.Success? ==> metrics.value.duplicateSetsWithUmi == |emitted|
    ensures metrics.Success? ==> metrics.value.observedUniqueUmis == |Distinct(ClusterObservedUmis(emitted))|
    ensures metrics.Success? ==> metrics.value.inferredUniqueUmis == |Distinct(ClusterInferredUmis(emitted))|
    ensures metrics.Success? ==>
              metrics.value.totalUmiBasesObserved == metrics.value.umiLength * |ClusterObservedUmis(emitted)|
  {
    var it := NewIterator(upstream, maxEditDistanceToJoin, NewUmiMetrics());
    assert !it.acc.haveSeenFirstRead && it.acc.metrics.umiLength == 0;
    assert Pending(it, join) == Flatten(join, upstream);
    if ClustersWell(join, upstream) && FirstLengthAdmits(upstream, maxEditDistanceToJoin, join) {
      assert DrainSafe(it, join);
    }
    var last;
    emitted, last := Drain(it, join);
    if last.Failure? {
      return emitted, Failure(last.error);
    }
    assert it.buffer == [];
    assert ClusterObservedUmis(it.buffer) == multiset{} && ClusterInferredUmis(it.buffer) == multiset{};
    assert last.value.acc.observedUmis + multiset{} == last.value.acc.observedUmis;
    assert last.value.acc.inferredUmis + multiset{} == last.value.acc.inferredUmis;
    assert multiset{} + ClusterObservedUmis(emitted) == ClusterObservedUmis(emitted);
    assert multiset{} + ClusterInferredUmis(emitted) == ClusterInferredUmis(emitted);
    assert last.value.acc.observedUmis == ClusterObservedUmis(emitted);
    assert last.value.acc.inferredUmis == ClusterInferredUmis(emitted);
    assert Consistent(it.acc);
    var closed := Close(last.value);
    if closed.Failure? {
      return emitted, Failure(closed.error);
    }
    var m := closed.value.acc.metrics;
    if ClustersHaveLength(emitted, m.umiLength) {
      ClusterErrorsBound(emitted, m.umiLength);
    }
    metrics := Success(m);
  }
}

=== FILE: wgs_collector.dfy ===
/** `WgsMetricsCollector` of CollectWgsMetrics: three count arrays (unfiltered
    depth, unfiltered base quality, high-quality depth) and three exclusion
    counters, updated once per locus by `addInfo`, and the consistency check
    `doWork` runs once every locus has been added.

    Two constructors are modelled. `NewCollectorAsWritten` sizes the base
    quality array by the coverage cap, as the code does, so a quality above
    the cap indexes past its end; `AddInfoAsWritten` models that as an
    `IndexOutOfBounds` failure. `NewCollector` gives the array one bin per
    non-negative byte value, which every base quality fits, and `AddInfo`
    is the update the rest of the model uses.
 */
module WgsCollector {
  import opened Wrappers
  import opened Sums
  import opened WgsLocus

  /** One bin for every non-negative value of a Java `byte`. */
  const QualityBins: nat := 128

  datatype WgsError =
    | IndexOutOfBounds(index: int, length: nat)   // IndexOutOfBoundsException from an AtomicLongArray
    | UnequalDistributions(baseQTotal: nat, depthTotal: nat)   // the PicardException of `doWork`

  datatype Collector = Collector(
    coverageCap: nat,
    minimumBaseQuality: int,
    unfilteredDepthHistogram: seq<nat>,
    unfilteredBaseQHistogram: seq<nat>,
    highQualityDepthHistogram: seq<nat>,
    basesExcludedByBaseq: nat,
    basesExcludedByOverlap: nat,
    basesExcludedByCapping: nat)

  /** Both depth arrays have one bin per depth 0..coverageCap. */
  predicate DepthArraysSized(c: Collector) {
    |c.unfilteredDepthHistogram| == c.coverageCap + 1 && |c.highQualityDepthHistogram| == c.coverageCap + 1
  }

  /** The shape the corrected collector keeps. */
  predicate Valid(c: Collector) {
    DepthArraysSized(c) && |c.unfilteredBaseQHistogram| == QualityBins
  }

  /** The relation `doWork` checks: every base counted in the base-quality
      histogram is one unit of unfiltered depth at some locus. */
  predicate HistogramsConsistent(c: Collector) {
    Sum(c.unfilteredBaseQHistogram) == WeightedSum(c.unfilteredDepthHistogram)
  }

  /** The constructor as written: all three arrays get coverageCap + 1 bins. */
  function NewCollectorAsWritten(coverageCap: nat, minimumBaseQuality: int): (c: Collector)
    ensures DepthArraysSized(c) && |c.unfilteredBaseQHistogram| == coverageCap + 1
    ensures c.coverageCap == coverageCap && c.minimumBaseQuality == minimumBaseQuality
    ensures forall i :: 0 <= i < |c.unfilteredBaseQHistogram| ==> c.unfilteredBaseQHistogram[i] == 0
    ensures forall i :: 0 <= i < |c.unfilteredDepthHistogram| ==> c.unfilteredDepthHistogram[i] == 0
    ensures forall i :: 0 <= i < |c.highQualityDepthHistogram| ==> c.highQualityDepthHistogram[i] == 0
    ensures c.basesExcludedByBaseq == 0 && c.basesExcludedByOverlap == 0 && c.basesExcludedByCapping == 0
  {
    Collector(coverageCap, minimumBaseQuality, Zeros(coverageCap + 1), Zeros(coverageCap + 1), Zeros(coverageCap + 1), 0, 0, 0)
  }

  /** The corrected constructor: the base-quality array is indexed by quality. */
  function NewCollector(coverageCap: nat, minimumBaseQuality: int): (c: Collector)
    ensures Valid(c) && HistogramsConsistent(c)
    ensures c.coverageCap == coverageCap && c.minimumBaseQuality == minimumBaseQuality
    ensures Sum(c.highQualityDepthHistogram) == 0 && WeightedSum(c.highQualityDepthHistogram) == 0
    ensures Sum(c.unfilteredDepthHistogram) == 0
    ensures c.basesExcludedByBaseq == 0 && c.basesExcludedByOverlap == 0 && c.basesExcludedByCapping == 0
  {
    ZerosSum(coverageCap + 1);
    ZerosSum(QualityBins);
    Collector(coverageCap, minimumBaseQuality, Zeros(coverageCap + 1), Zeros(QualityBins), Zeros(coverageCap + 1), 0, 0, 0)
  }

  /** How many times `v` occurs in `qs`. */
  function Occurrences(qs: seq<Byte>, v: int): nat
    decreases |qs|
  {
    if |qs| == 0 then 0 else Occurrences(qs[..|qs| - 1], v) + (if qs[|qs| - 1] == v then 1 else 0)
  }

  /** Every quality in `qs` is an index of an array of `length` bins. */
  predicate IndexesAll(qs: seq<Byte>, length: nat) {
    forall i :: 0 <= i < |qs| ==> 0 <= qs[i] < length
  }

  /** `getAndIncrement(q)` for each remembered quality `q`, in order, on an
      array every quality indexes: bin `b` grows by the number of times `b`
      occurs, and the total by the number of qualities. */
  function BumpQualities(h: seq<nat>, qs: seq<Byte>): (r: seq<nat>)
    requires IndexesAll(qs, |h|)
    ensures |r| == |h|
    ensures Sum(r) == Sum(h) + |qs|
    ensures forall b :: 0 <= b < |r| ==> r[b] == h[b] + Occurrences(qs, b)
    decreases |qs|
  {
    if |qs| == 0 then h
    else
      var p := BumpQualities(h, qs[..|qs| - 1]);
      var q := qs[|qs| - 1];
      AddToBin(p, q, 1);
      p[q := p[q] + 1]
  }

  /** The same increments on an array that may be too short: the first
      quality that does not index it aborts with `IndexOutOfBounds`. */
  function BumpQualitiesChecked(h: seq<nat>, qs: seq<Byte>): (r: Result<seq<nat>, WgsError>)
    ensures r.Success? <==> IndexesAll(qs, |h|)
    ensures r.Success? ==> r.value == BumpQualities(h, qs)
    ensures r.Failure? ==> r.error.IndexOutOfBounds? && r.error.length == |h|
    ensures r.Failure? ==> exists i :: 0 <= i < |qs| && qs[i] == r.error.index && !(0 <= qs[i] < |h|)
    decreases |qs|
  {
    if |qs| == 0 then Success(h)
    else
      var p :- BumpQualitiesChecked(h, qs[..|qs| - 1]);
      var q := qs[|qs| - 1];
      if 0 <= q < |h| then Success(p[q := p[q] + 1]) else Failure(IndexOutOfBounds(q, |h|))
  }

  /** The updates after the loop of `addInfo`: the high-quality depth is the
      pileup size clamped to the cap, any pileup beyond the cap is counted as
      excluded by capping, and one locus is added to each depth array. */
  function Record(c: Collector, t: LocusTally, baseQ: seq<nat>): (r: Collector)
    requires DepthArraysSized(c) && t.unfilteredDepth <= c.coverageCap
    ensures DepthArraysSized(r)
    ensures r.coverageCap == c.coverageCap && r.minimumBaseQuality == c.minimumBaseQuality
    ensures r.unfilteredBaseQHistogram == baseQ
    ensures r.basesExcludedByBaseq == c.basesExcludedByBaseq + t.excludedByBaseq
    ensures r.basesExcludedByOverlap == c.basesExcludedByOverlap + t.excludedByOverlap
    ensures (r.basesExcludedByCapping - c.basesExcludedByCapping) + Min(t.pileupSize, c.coverageCap) == t.pileupSize
    ensures Min(t.pileupSize, c.coverageCap) <= c.coverageCap
    ensures forall d :: 0 <= d < |r.highQualityDepthHistogram| ==>
              r.highQualityDepthHistogram[d]
                == c.highQualityDepthHistogram[d] + (if d == Min(t.pileupSize, c.coverageCap) then 1 else 0)
    ensures forall d :: 0 <= d < |r.unfilteredDepthHistogram| ==>
              r.unfilteredDepthHistogram[d] == c.unfilteredDepthHistogram[d] + (if d == t.unfilteredDepth then 1 else 0)
  {
    var highQualityDepth := Min(t.pileupSize, c.coverageCap);
    c.(unfilteredBaseQHistogram := baseQ,
       highQualityDepthHistogram := Incremented(c.highQualityDepthHistogram, highQualityDepth),
       unfilteredDepthHistogram := Incremented(c.unfilteredDepthHistogram, t.unfilteredDepth),
       basesExcludedByBaseq := c.basesExcludedByBaseq + t.excludedByBaseq,
       basesExcludedByOverlap := c.basesExcludedByOverlap + t.excludedByOverlap,
       basesExcludedByCapping := c.basesExcludedByCapping
                                 + (if highQualityDepth < t.pileupSize then t.pileupSize - c.coverageCap else 0))
  }

  /** `addInfo` on the corrected collector: it never fails and keeps the shape. */
  function AddInfo(c: Collector, records: seq<PileupRecord>): (r: Collector)
    requires Valid(c)
    ensures Valid(r)
    ensures r.coverageCap == c.coverageCap && r.minimumBaseQuality == c.minimumBaseQuality
  {
    var t := TallyLocus(records, c.coverageCap, c.minimumBaseQuality);
    Record(c, t, BumpQualities(c.unfilteredBaseQHistogram, t.countedQualities))
  }

  /** `addInfo` as written: it fails exactly when a remembered quality is not
      an index of the base-quality array. */
  function AddInfoAsWritten(c: Collector, records: seq<PileupRecord>): (r: Result<Collector, WgsError>)
    requires DepthArraysSized(c)
    ensures r.Failure? <==> !IndexesAll(TallyLocus(records, c.coverageCap, c.minimumBaseQuality).countedQualities,
                                        |c.unfilteredBaseQHistogram|)
    ensures r.Success? ==> DepthArraysSized(r.value) && |r.value.unfilteredBaseQHistogram| == |c.unfilteredBaseQHistogram|
  {
    var t := TallyLocus(records, c.coverageCap, c.minimumBaseQuality);
    var baseQ :- BumpQualitiesChecked(c.unfilteredBaseQHistogram, t.countedQualities);
    Success(Record(c, t, baseQ))
  }

  // ---------------------------------------------------------------------------
  // Properties of one call
  // ---------------------------------------------------------------------------

  /** One call of `addInfo` files the locus under one bin of each depth
      array: the high-quality depth bin of the distinct passing read names
      and the unfiltered depth bin of the records above quality 2, each
      clamped to the cap. */
  lemma AddInfoDepthBins(c: Collector, records: seq<PileupRecord>)
    requires Valid(c)
    ensures AddInfo(c, records).highQualityDepthHistogram
            == Incremented(c.highQualityDepthHistogram, Min(|PassingNames(records, c.minimumBaseQuality)|, c.coverageCap))
    ensures AddInfo(c, records).unfilteredDepthHistogram
            == Incremented(c.unfilteredDepthHistogram, Min(|AboveTwoQualities(records)|, c.coverageCap))
  {
    TallyNames(records, c.coverageCap, c.minimumBaseQuality);
    TallyUnfilteredDepth(records, c.coverageCap, c.minimumBaseQuality);
  }

  /** The exclusion counters grow by the records that do not pass, by the
      repeats of passing read names, and by the pileup beyond the cap. */
  lemma AddInfoExclusions(c: Collector, records: seq<PileupRecord>)
    requires Valid(c)
    ensures var r := AddInfo(c, records);
      var names := |PassingNames(records, c.minimumBaseQuality)|;
      var passing := CountPassing(records, c.minimumBaseQuality);
      && r.basesExcludedByBaseq == c.basesExcludedByBaseq + |records| - passing
      && r.basesExcludedByOverlap == c.basesExcludedByOverlap + passing - names
      && r.basesExcludedByCapping == c.basesExcludedByCapping + (if names > c.coverageCap then names - c.coverageCap else 0)
  {
    TallyNames(records, c.coverageCap, c.minimumBaseQuality);
    TallyBaseqExclusions(records, c.coverageCap, c.minimumBaseQuality);
  }

  /** Each base-quality bin grows by the occurrences of that quality among
      the qualities above 2, in record order, up to the cap. */
  lemma AddInfoQualityBins(c: Collector, records: seq<PileupRecord>, b: int)
    requires Valid(c) && 0 <= b < QualityBins
    ensures var above := AboveTwoQualities(records);
      AddInfo(c, records).unfilteredBaseQHistogram[b]
      == c.unfilteredBaseQHistogram[b] + Occurrences(above[..Min(|above|, c.coverageCap)], b)
  {
    TallyCountedQualities(records, c.coverageCap, c.minimumBaseQuality);
  }

  /** Every record of the locus is accounted for exactly once: excluded for
      base quality, excluded as an overlapping mate, excluded by capping, or
      counted in the high-quality depth the locus is filed under. */
  lemma AddInfoPartition(c: Collector, records: seq<PileupRecord>)
    requires Valid(c)
    ensures var r := AddInfo(c, records);
      (r.basesExcludedByBaseq - c.basesExcludedByBaseq)
      + (r.basesExcludedByOverlap - c.basesExcludedByOverlap)
      + (r.basesExcludedByCapping - c.basesExcludedByCapping)
      + WeightedSum(r.highQualityDepthHistogram) - WeightedSum(c.highQualityDepthHistogram)
      == |records|
  {
    var t := TallyLocus(records, c.coverageCap, c.minimumBaseQuality);
    assert AddInfo(c, records) == Record(c, t, BumpQualities(c.unfilteredBaseQHistogram, t.countedQualities));
    AddToBin(c.highQualityDepthHistogram, Min(t.pileupSize, c.coverageCap), 1);
  }

  /** The updates after the loop, given a base-quality array that gained one
      count per unit of unfiltered depth, add one locus to each depth array
      and keep the histograms consistent. */
  lemma RecordPreservesConsistency(c: Collector, t: LocusTally, baseQ: seq<nat>)
    requires DepthArraysSized(c) && t.unfilteredDepth <= c.coverageCap
    requires Sum(baseQ) == Sum(c.unfilteredBaseQHistogram) + t.unfilteredDepth
    ensures var r := Record(c, t, baseQ);
      && Sum(r.highQualityDepthHistogram) == Sum(c.highQualityDepthHistogram) + 1
      && Sum(r.unfilteredDepthHistogram) == Sum(c.unfilteredDepthHistogram) + 1
      && (HistogramsConsistent(c) ==> HistogramsConsistent(r))
  {
    AddToBin(c.highQualityDepthHistogram, Min(t.pileupSize, c.coverageCap), 1);
    AddToBin(c.unfilteredDepthHistogram, t.unfilteredDepth, 1);
  }

  /** `addInfo` files the locus under exactly one bin of each depth array and
      keeps the two histograms consistent. */
  lemma AddInfoPreservesConsistency(c: Collector, records: seq<PileupRecord>)
    requires Valid(c)
    ensures var r := AddInfo(c, records);
      && Sum(r.highQualityDepthHistogram) == Sum(c.highQualityDepthHistogram) + 1
      && Sum(r.unfilteredDepthHistogram) == Sum(c.unfilteredDepthHistogram) + 1
      && (HistogramsConsistent(c) ==> HistogramsConsistent(r))
  {
    var t := TallyLocus(records, c.coverageCap, c.minimumBaseQuality);
    RecordPreservesConsistency(c, t, BumpQualities(c.unfilteredBaseQHistogram, t.countedQualities));
  }

  /** On a collector whose base-quality array has the corrected size, the
      code as written and the corrected update agree. */
  lemma AsWrittenAgreesWhenSized(c: Collector, records: seq<PileupRecord>)
    requires Valid(c)
    ensures AddInfoAsWritten(c, records) == Success(AddInfo(c, records))
  {
  }

  /** As written, the update is safe whenever no base quality exceeds the
      coverage cap, the array's last index. */
  lemma AsWrittenSafeWithinCap(c: Collector, records: seq<PileupRecord>)
    requires DepthArraysSized(c) && |c.unfilteredBaseQHistogram| == c.coverageCap + 1
    requires forall i :: 0 <= i < |records| ==> records[i].baseQuality <= c.coverageCap
    ensures AddInfoAsWritten(c, records).Success?
  {
    TallyQualitiesBounded(records, c.coverageCap, c.minimumBaseQuality, c.coverageCap + 1);
  }

  /** Whenever the code as written does not fail, it keeps the histograms
      consistent and files the locus under one bin of each depth array. */
  lemma AsWrittenPreservesConsistency(c: Collector, records: seq<PileupRecord>)
    requires DepthArraysSized(c)
    requires AddInfoAsWritten(c, records).Success?
    ensures var r := AddInfoAsWritten(c, records).value;
      && Sum(r.highQualityDepthHistogram) == Sum(c.highQualityDepthHistogram) + 1
      && Sum(r.unfilteredDepthHistogram) == Sum(c.unfilteredDepthHistogram) + 1
      && (HistogramsConsistent(c) ==> HistogramsConsistent(r))
  {
    var t := TallyLocus(records, c.coverageCap, c.minimumBaseQuality);
    RecordPreservesConsistency(c, t, BumpQualitiesChecked(c.unfilteredBaseQHistogram, t.countedQualities).value);
  }

  /** With the default-like settings coverageCap = 10 and a minimum base
      quality of 20, a single read of base quality 30 indexes bin 30 of an
      11-bin array: the code as written fails where the corrected collector
      files the base under quality 30. */
  lemma AsWrittenOverflow()
    ensures AddInfoAsWritten(NewCollectorAsWritten(10, 20), [PileupRecord("r1", 30, false)])
            == Failure(IndexOutOfBounds(30, 11))
    ensures AddInfo(NewCollector(10, 20), [PileupRecord("r1", 30, false)]).unfilteredBaseQHistogram[30] == 1
  {
    var records := [PileupRecord("r1", 30, false)];
    assert records[..0] == [];
    var t := TallyLocus(records, 10, 20);
    assert t.countedQualities == [30];
    assert t.countedQualities[..0] == [];
    assert Occurrences(t.countedQualities, 30) == 1;
  }

  // ---------------------------------------------------------------------------
  // A whole run
  // ---------------------------------------------------------------------------

  /** `addInfo` over every locus, in order. */
  function AddLoci(c: Collector, loci: seq<seq<PileupRecord>>): (r: Collector)
    requires Valid(c)
    ensures Valid(r)
    ensures r.coverageCap == c.coverageCap && r.minimumBaseQuality == c.minimumBaseQuality
    decreases |loci|
  {
    if |loci| == 0 then c else AddInfo(AddLoci(c, loci[..|loci| - 1]), loci[|loci| - 1])
  }

  /** The number of pileup records over all loci. */
  function TotalRecords(loci: seq<seq<PileupRecord>>): nat
    decreases |loci|
  {
    if |loci| == 0 then 0 else TotalRecords(loci[..|loci| - 1]) + |loci[|loci| - 1]|
  }

  /** After any run from a fresh collector: each depth histogram holds one
      entry per locus, the consistency `doWork` checks holds, and the bases
      counted at high quality plus the three exclusion counters account for
      every pileup record. */
  lemma {:induction false} RunInvariant(coverageCap: nat, minimumBaseQuality: int, loci: seq<seq<PileupRecord>>)
    ensures var r := AddLoci(NewCollector(coverageCap, minimumBaseQuality), loci);
      && Sum(r.highQualityDepthHistogram) == |loci|
      && Sum(r.unfilteredDepthHistogram) == |loci|
      && HistogramsConsistent(r)
      && WeightedSum(r.highQualityDepthHistogram) + r.basesExcludedByBaseq + r.basesExcludedByOverlap
         + r.basesExcludedByCapping == TotalRecords(loci)
    decreases |loci|
  {
    if |loci| > 0 {
      var prefix := loci[..|loci| - 1];
      RunInvariant(coverageCap, minimumBaseQuality, prefix);
      var c := AddLoci(NewCollector(coverageCap, minimumBaseQuality), prefix);
      AddInfoPreservesConsistency(c, loci[|loci| - 1]);
      AddInfoPartition(c, loci[|loci| - 1]);
    }
  }

  // ---------------------------------------------------------------------------
  // The check of `doWork`
  // ---------------------------------------------------------------------------

  /** The loops at the end of `doWork`: sum the base-quality array, sum
      depth times count over the unfiltered depth array, and fail when the
      two totals differ. */
  method CheckHistograms(c: Collector) returns (r: Outcome<WgsError>)
    requires DepthArraysSized(c)
    ensures r.Pass? <==> HistogramsConsistent(c)
    ensures r.Fail? ==> r.error == UnequalDistributions(Sum(c.unfilteredBaseQHistogram), WeightedSum(c.unfilteredDepthHistogram))
  {
    var baseQ := c.unfilteredBaseQHistogram;
    var depth := c.unfilteredDepthHistogram;
    var baseQSum := 0;
    var i := 0;
    while i < |baseQ|
      invariant 0 <= i <= |baseQ|
      invariant baseQSum == Sum(baseQ[..i])
    {
      PrefixStep(baseQ, i);
      baseQSum := baseQSum + baseQ[i];
      i := i + 1;
    }
    assert baseQ[..|baseQ|] == baseQ;
    var depthSum := 0;
    i := 0;
    while i <= c.coverageCap
      invariant 0 <= i <= c.coverageCap + 1
      invariant depthSum == WeightedSum(depth[..i])
    {
      PrefixStep(depth, i);
      depthSum := depthSum + i * depth[i];
      i := i + 1;
    }
    assert depth[..|depth|] == depth;
    if baseQSum != depthSum {
      return Fail(UnequalDistributions(baseQSum, depthSum));
    }
    return Pass;
  }

  /** A run of the corrected collector always passes the check. */
  method CollectAndCheck(coverageCap: nat, minimumBaseQuality: int, loci: seq<seq<PileupRecord>>)
    returns (c: Collector, outcome: Outcome<WgsError>)
    ensures c == AddLoci(NewCollector(coverageCap, minimumBaseQuality), loci)
    ensures outcome == Pass
    ensures Sum(c.highQualityDepthHistogram) == |loci|
  {
    c := AddLoci(NewCollector(coverageCap, minimumBaseQuality), loci);
    RunInvariant(coverageCap, minimumBaseQuality, loci);
    outcome := CheckHistograms(c);
  }
}

=== FILE: wgs_locus.dfy ===
/** The per-locus scan of `WgsMetricsCollector.addInfo`: every pileup record
    at a locus is sorted into exactly one outcome (excluded for base quality,
    excluded as an overlapping mate, or counted in the pileup), while the
    unfiltered depth counts records of quality above 2 up to the coverage cap
    and remembers their qualities for the base-quality histogram.
 */
module WgsLocus {
  import opened Sums

  /** A Java `byte`: base qualities are bytes. */
  type Byte = b: int | -128 <= b < 128

  /** One `RecordAndOffset` of a locus: the read's name, the quality of its
      base at this locus, and whether that base is a no-call. */
  datatype PileupRecord = PileupRecord(readName: string, baseQuality: Byte, readBaseIsNoCall: bool)

  /** The local state of the loop over a locus's records. */
  datatype LocusTally = LocusTally(
    readNames: set<string>,
    pileupSize: nat,
    unfilteredDepth: nat,
    countedQualities: seq<Byte>,   // base qualities added to the unfiltered base-quality histogram
    excludedByBaseq: nat,
    excludedByOverlap: nat)

  /** A record that reaches the read-name check: quality above 2, at least
      the minimum base quality, and not a no-call. */
  predicate Passes(r: PileupRecord, minimumBaseQuality: int) {
    r.baseQuality > 2 && r.baseQuality >= minimumBaseQuality && !r.readBaseIsNoCall
  }

  /** One iteration of the loop in `addInfo`. */
  function TallyStep(t: LocusTally, r: PileupRecord, coverageCap: nat, minimumBaseQuality: int): (s: LocusTally)
    ensures s.excludedByBaseq + s.excludedByOverlap + s.pileupSize
              == t.excludedByBaseq + t.excludedByOverlap + t.pileupSize + 1
    ensures s.excludedByBaseq == t.excludedByBaseq + (if Passes(r, minimumBaseQuality) then 0 else 1)
    ensures s.excludedByOverlap == t.excludedByOverlap
                                   + (if Passes(r, minimumBaseQuality) && r.readName in t.readNames then 1 else 0)
    ensures s.readNames == if Passes(r, minimumBaseQuality) then t.readNames + {r.readName} else t.readNames
    ensures s.unfilteredDepth == t.unfilteredDepth + (if r.baseQuality > 2 && t.unfilteredDepth < coverageCap then 1 else 0)
    ensures s.countedQualities
              == t.countedQualities + (if r.baseQuality > 2 && t.unfilteredDepth < coverageCap then [r.baseQuality] else [])
  {
    if r.baseQuality <= 2 then t.(excludedByBaseq := t.excludedByBaseq + 1)
    else
      var t := if t.unfilteredDepth < coverageCap
               then t.(countedQualities := t.countedQualities + [r.baseQuality],
                       unfilteredDepth := t.unfilteredDepth + 1)
               else t;
      if r.baseQuality < minimumBaseQuality || r.readBaseIsNoCall then t.(excludedByBaseq := t.excludedByBaseq + 1)
      else if r.readName in t.readNames then t.(excludedByOverlap := t.excludedByOverlap + 1)
      else t.(readNames := t.readNames + {r.readName}, pileupSize := t.pileupSize + 1)
  }

  /** The loop over a locus's records, in order. Every record lands in
      exactly one of the three outcomes, the unfiltered depth never exceeds
      the cap, and one quality above 2 is remembered per unit of unfiltered
      depth. */
  function TallyLocus(records: seq<PileupRecord>, coverageCap: nat, minimumBaseQuality: int): (t: LocusTally)
    ensures t.excludedByBaseq + t.excludedByOverlap + t.pileupSize == |records|
    ensures t.unfilteredDepth <= coverageCap
    ensures |t.countedQualities| == t.unfilteredDepth
    ensures forall i :: 0 <= i < |t.countedQualities| ==> t.countedQualities[i] > 2
    ensures t.pileupSize == |t.readNames|
    decreases |records|
  {
    if |records| == 0 then LocusTally({}, 0, 0, [], 0, 0)
    else
      TallyStep(TallyLocus(records[..|records| - 1], coverageCap, minimumBaseQuality),
                records[|records| - 1], coverageCap, minimumBaseQuality)
  }

  // ---------------------------------------------------------------------------
  // Reference counts over the records
  // ---------------------------------------------------------------------------

  function CountPassing(records: seq<PileupRecord>, minimumBaseQuality: int): nat
    decreases |records|
  {
    if |records| == 0 then 0
    else CountPassing(records[..|records| - 1], minimumBaseQuality)
         + (if Passes(records[|records| - 1], minimumBaseQuality) then 1 else 0)
  }

  /** The qualities of the records above quality 2, in record order: the
      bases the unfiltered depth would count with no coverage cap. */
  function AboveTwoQualities(records: seq<PileupRecord>): (qs: seq<Byte>)
    ensures forall i :: 0 <= i < |qs| ==> qs[i] > 2
    decreases |records|
  {
    if |records| == 0 then []
    else AboveTwoQualities(records[..|records| - 1])
         + (if records[|records| - 1].baseQuality > 2 then [records[|records| - 1].baseQuality] else [])
  }

  /** The distinct names of the passing records. */
  function PassingNames(records: seq<PileupRecord>, minimumBaseQuality: int): set<string>
    decreases |records|
  {
    if |records| == 0 then {}
    else PassingNames(records[..|records| - 1], minimumBaseQuality)
         + (if Passes(records[|records| - 1], minimumBaseQuality) then {records[|records| - 1].readName} else {})
  }

  lemma {:induction false} PassingNamesBound(records: seq<PileupRecord>, minimumBaseQuality: int)
    ensures |PassingNames(records, minimumBaseQuality)| <= CountPassing(records, minimumBaseQuality)
    decreases |records|
  {
    if |records| > 0 {
      PassingNamesBound(records[..|records| - 1], minimumBaseQuality);
    }
  }

  /** The pileup holds each passing read name exactly once. */
  lemma {:induction false} TallyNames(records: seq<PileupRecord>, coverageCap: nat, minimumBaseQuality: int)
    ensures TallyLocus(records, coverageCap, minimumBaseQuality).readNames == PassingNames(records, minimumBaseQuality)
    decreases |records|
  {
    if |records| > 0 {
      TallyNames(records[..|records| - 1], coverageCap, minimumBaseQuality);
    }
  }

  /** Base-quality exclusions are exactly the records that do not pass. */
  lemma {:induction false} TallyBaseqExclusions(records: seq<PileupRecord>, coverageCap: nat, minimumBaseQuality: int)
    ensures TallyLocus(records, coverageCap, minimumBaseQuality).excludedByBaseq
              == |records| - CountPassing(records, minimumBaseQuality)
    decreases |records|
  {
    if |records| > 0 {
      TallyBaseqExclusions(records[..|records| - 1], coverageCap, minimumBaseQuality);
    }
  }

  /** The unfiltered depth remembers the qualities above 2 in record order,
      stopping once the coverage cap is reached. */
  lemma {:induction false} TallyCountedQualities(records: seq<PileupRecord>, coverageCap: nat, minimumBaseQuality: int)
    ensures var qs := AboveTwoQualities(records);
      TallyLocus(records, coverageCap, minimumBaseQuality).countedQualities == qs[..Min(|qs|, coverageCap)]
    decreases |records|
  {
    if |records| > 0 {
      var prefix := records[..|records| - 1];
      TallyCountedQualities(prefix, coverageCap, minimumBaseQuality);
      var qs := AboveTwoQualities(prefix);
      var r := records[|records| - 1];
      if r.baseQuality > 2 {
        assert AboveTwoQualities(records) == qs + [r.baseQuality];
        if |qs| >= coverageCap {
          assert (qs + [r.baseQuality])[..coverageCap] == qs[..coverageCap];
        } else {
          assert qs[..|qs|] == qs;
          assert (qs + [r.baseQuality])[..|qs| + 1] == qs + [r.baseQuality];
        }
      } else {
        assert AboveTwoQualities(records) == qs;
      }
    }
  }

  /** The unfiltered depth counts the records above quality 2, up to the cap. */
  lemma {:induction false} TallyUnfilteredDepth(records: seq<PileupRecord>, coverageCap: nat, minimumBaseQuality: int)
    ensures TallyLocus(records, coverageCap, minimumBaseQuality).unfilteredDepth
            == Min(|AboveTwoQualities(records)|, coverageCap)
  {
    TallyCountedQualities(records, coverageCap, minimumBaseQuality);
  }

  /** Every remembered quality is the quality of some record, so a bound on
      the records' qualities bounds the remembered ones. */
  lemma {:induction false} TallyQualitiesBounded(records: seq<PileupRecord>, coverageCap: nat, minimumBaseQuality: int, bound: int)
    requires forall i :: 0 <= i < |records| ==> records[i].baseQuality < bound
    ensures forall i :: 0 <= i < |TallyLocus(records, coverageCap, minimumBaseQuality).countedQualities|
              ==> TallyLocus(records, coverageCap, minimumBaseQuality).countedQualities[i] < bound
    decreases |records|
  {
    if |records| > 0 {
      var prefix := records[..|records| - 1];
      assert forall i :: 0 <= i < |prefix| ==> prefix[i] == records[i];
      TallyQualitiesBounded(prefix, coverageCap, minimumBaseQuality, bound);
      var before := TallyLocus(prefix, coverageCap, minimumBaseQuality).countedQualities;
      var after := TallyLocus(records, coverageCap, minimumBaseQuality).countedQualities;
      assert after == before || after == before + [records[|records| - 1].baseQuality];
    }
  }

  /** What the scan of one locus computes, against the reference counts:
      base-quality exclusions are exactly the records that do not pass; the
      pileup holds each passing read name once; every repeat of a passing
      name is an overlap exclusion; and the unfiltered depth counts records
      of quality above 2, in order, stopping at the coverage cap. */
  lemma TallyClassifies(records: seq<PileupRecord>, coverageCap: nat, minimumBaseQuality: int)
    ensures var t := TallyLocus(records, coverageCap, minimumBaseQuality);
      && t.excludedByBaseq == |records| - CountPassing(records, minimumBaseQuality)
      && t.readNames == PassingNames(records, minimumBaseQuality)
      && t.pileupSize == |PassingNames(records, minimumBaseQuality)|
      && t.excludedByOverlap == CountPassing(records, minimumBaseQuality) - |PassingNames(records, minimumBaseQuality)|
      && t.countedQualities == AboveTwoQualities(records)[..Min(|AboveTwoQualities(records)|, coverageCap)]
      && t.unfilteredDepth == Min(|AboveTwoQualities(records)|, coverageCap)
  {
    TallyNames(records, coverageCap, minimumBaseQuality);
    TallyBaseqExclusions(records, coverageCap, minimumBaseQuality);
    TallyCountedQualities(records, coverageCap, minimumBaseQuality);
  }

  /** A read name contributes at most once to the pileup: two passing records
      with the same name leave the pileup one short of the passing count. */
  lemma RepeatedNameIsOverlap(records: seq<PileupRecord>, coverageCap: nat, minimumBaseQuality: int, i: nat, j: nat)
    requires i < j < |records|
    requires Passes(records[i], minimumBaseQuality) && Passes(records[j], minimumBaseQuality)
    requires records[i].readName == records[j].readName
    ensures TallyLocus(records, coverageCap, minimumBaseQuality).pileupSize
              < CountPassing(records, minimumBaseQuality)
    ensures TallyLocus(records, coverageCap, minimumBaseQuality).excludedByOverlap > 0
  {
    TallyClassifies(records, coverageCap, minimumBaseQuality);
    RepeatShrinksNames(records, minimumBaseQuality, i, j);
  }

  lemma {:induction false} RepeatShrinksNames(records: seq<PileupRecord>, minimumBaseQuality: int, i: nat, j: nat)
    requires i < j < |records|
    requires Passes(records[i], minimumBaseQuality) && Passes(records[j], minimumBaseQuality)
    requires records[i].readName == records[j].readName
    ensures |PassingNames(records, minimumBaseQuality)| < CountPassing(records, minimumBaseQuality)
    decreases |records|
  {
    var n := |records| - 1;
    var prefix := records[..n];
    if j == n {
      PassingNamesBound(prefix, minimumBaseQuality);
      NameInPassingNames(prefix, minimumBaseQuality, i);
      assert PassingNames(records, minimumBaseQuality) == PassingNames(prefix, minimumBaseQuality);
    } else {
      RepeatShrinksNames(prefix, minimumBaseQuality, i, j);
    }
  }

  lemma {:induction false} NameInPassingNames(records: seq<PileupRecord>, minimumBaseQuality: int, i: nat)
    requires i < |records| && Passes(records[i], minimumBaseQuality)
    ensures records[i].readName in PassingNames(records, minimumBaseQuality)
    decreases |records|
  {
    if i < |records| - 1 {
      NameInPassingNames(records[..|records| - 1], minimumBaseQuality, i);
    }
  }
}

=== FILE: wgs_metrics.dfy ===
/** The histograms CollectWgsMetrics builds from the collector's arrays
    (`getHistogram`) and the depth folding at the start of
    `calculateDerivedFields`, which files every bin at or above the coverage
    cap under the cap. Only the integer totals the derived metrics are built
    from are modelled: the number of loci (`GENOME_TERRITORY`) and the number
    of high-quality bases (`Histogram.getSum`).
 */
module WgsHistograms {
  import opened Sums
  import opened WgsLocus
  import opened WgsCollector

  /** A `Histogram.Bin<Integer>`: a depth (or quality) and its count. */
  datatype Bin = Bin(id: nat, value: nat)

  /** The bins of a `Histogram<Integer>`, in the ascending id order in which
      `values()` yields them. */
  type Histogram = seq<Bin>

  /** `getSumOfValues`: the number of loci a depth histogram describes. */
  function BinTotal(h: Histogram): nat
    decreases |h|
  {
    if |h| == 0 then 0 else BinTotal(h[..|h| - 1]) + h[|h| - 1].value
  }

  /** `getSum`: the total of id times count, the number of bases. */
  function BinWeightedTotal(h: Histogram): nat
    decreases |h|
  {
    if |h| == 0 then 0 else BinWeightedTotal(h[..|h| - 1]) + h[|h| - 1].id * h[|h| - 1].value
  }

  /** `getHistogram`: `increment(i, array[i])` for every index, in order. */
  function GetHistogram(a: seq<nat>): (h: Histogram)
    ensures |h| == |a|
    decreases |a|
  {
    if |a| == 0 then [] else GetHistogram(a[..|a| - 1]) + [Bin(|a| - 1, a[|a| - 1])]
  }

  /** The histogram holds exactly `array[i]` under bin `i`, and its totals
      are the array's totals. */
  lemma {:induction false} GetHistogramContents(a: seq<nat>)
    ensures forall i :: 0 <= i < |a| ==> GetHistogram(a)[i] == Bin(i, a[i])
    ensures BinTotal(GetHistogram(a)) == Sum(a)
    ensures BinWeightedTotal(GetHistogram(a)) == WeightedSum(a)
    decreases |a|
  {
    if |a| > 0 {
      var n := |a| - 1;
      GetHistogramContents(a[..n]);
      var h := GetHistogram(a);
      assert h[..n] == GetHistogram(a[..n]);
    }
  }

  /** The loop of `calculateDerivedFields`: every bin's count is added to
      the array bin of its depth, depths at or above the cap all landing in
      the cap bin. The array has one bin per depth 0..cap and its total is
      the histogram's total. */
  function FoldDepths(h: Histogram, coverageCap: nat): (r: seq<nat>)
    ensures |r| == coverageCap + 1
    ensures Sum(r) == BinTotal(h)
    decreases |h|
  {
    if |h| == 0 then
      ZerosSum(coverageCap + 1);
      Zeros(coverageCap + 1)
    else
      var p := FoldDepths(h[..|h| - 1], coverageCap);
      var b := h[|h| - 1];
      var depth := Min(b.id, coverageCap);
      AddToBin(p, depth, b.value);
      p[depth := p[depth] + b.value]
  }

  /** The count of the bins with id `d`. */
  function CountAt(h: Histogram, d: nat): nat
    decreases |h|
  {
    if |h| == 0 then 0 else CountAt(h[..|h| - 1], d) + (if h[|h| - 1].id == d then h[|h| - 1].value else 0)
  }

  /** The count of the bins with id at least `d`. */
  function CountFrom(h: Histogram, d: nat): nat
    decreases |h|
  {
    if |h| == 0 then 0 else CountFrom(h[..|h| - 1], d) + (if h[|h| - 1].id >= d then h[|h| - 1].value else 0)
  }

  /** Below the cap each folded bin holds the count of its own depth; the cap
      bin holds everything at or above the cap. */
  lemma {:induction false} FoldDepthsBins(h: Histogram, coverageCap: nat, d: nat)
    requires d <= coverageCap
    ensures FoldDepths(h, coverageCap)[d] == if d < coverageCap then CountAt(h, d) else CountFrom(h, coverageCap)
    decreases |h|
  {
    if |h| > 0 {
      FoldDepthsBins(h[..|h| - 1], coverageCap, d);
    }
  }

  /** Folding the histogram `getHistogram` makes from a depth array of one
      bin per depth 0..cap gives back that array. */
  lemma {:induction false} FoldGetHistogram(a: seq<nat>, coverageCap: nat)
    requires |a| == coverageCap + 1
    ensures FoldDepths(GetHistogram(a), coverageCap) == a
  {
    var r := FoldDepths(GetHistogram(a), coverageCap);
    forall d | 0 <= d <= coverageCap
      ensures r[d] == a[d]
    {
      FoldDepthsBins(GetHistogram(a), coverageCap, d);
      if d < coverageCap {
        CountAtGetHistogram(a, d);
      } else {
        CountFromGetHistogram(a, d);
      }
    }
  }

  lemma {:induction false} CountAtGetHistogram(a: seq<nat>, d: nat)
    requires d < |a|
    ensures CountAt(GetHistogram(a), d) == a[d]
    decreases |a|
  {
    var n := |a| - 1;
    assert GetHistogram(a)[..n] == GetHistogram(a[..n]);
    if d < n {
      CountAtGetHistogram(a[..n], d);
    } else {
      CountAtAbsent(a[..n], d);
    }
  }

  /** An index past the end of the array has no bin. */
  lemma {:induction false} CountAtAbsent(a: seq<nat>, d: nat)
    requires d >= |a|
    ensures CountAt(GetHistogram(a), d) == 0
    decreases |a|
  {
    if |a| > 0 {
      var n := |a| - 1;
      assert GetHistogram(a)[..n] == GetHistogram(a[..n]);
      CountAtAbsent(a[..n], d);
    }
  }

  lemma {:induction false} CountFromGetHistogram(a: seq<nat>, d: nat)
    requires d == |a| - 1
    ensures CountFrom(GetHistogram(a), d) == a[d]
  {
    var n := |a| - 1;
    assert GetHistogram(a)[..n] == GetHistogram(a[..n]);
    CountFromAbsent(a[..n], d);
  }

  lemma {:induction false} CountFromAbsent(a: seq<nat>, d: nat)
    requires d >= |a|
    ensures CountFrom(GetHistogram(a), d) == 0
    decreases |a|
  {
    if |a| > 0 {
      var n := |a| - 1;
      assert GetHistogram(a)[..n] == GetHistogram(a[..n]);
      CountFromAbsent(a[..n], d);
    }
  }

  /** The integer totals the derived metrics of a run are built from: the
      high-quality depth histogram describes one locus per locus added
      (`GENOME_TERRITORY`), the folded array keeps that total, and its
      `getSum` together with the three exclusion counters accounts for every
      pileup record (the part of `totalWithExcludes` this collector counts). */
  lemma RunTotals(coverageCap: nat, minimumBaseQuality: int, loci: seq<seq<PileupRecord>>)
    ensures var c := AddLoci(NewCollector(coverageCap, minimumBaseQuality), loci);
      var h := GetHistogram(c.highQualityDepthHistogram);
      && BinTotal(h) == |loci|
      && Sum(FoldDepths(h, coverageCap)) == |loci|
      && BinWeightedTotal(h) + c.basesExcludedByBaseq + c.basesExcludedByOverlap + c.basesExcludedByCapping
         == TotalRecords(loci)
  {
    var c := AddLoci(NewCollector(coverageCap, minimumBaseQuality), loci);
    RunInvariant(coverageCap, minimumBaseQuality, loci);
    GetHistogramContents(c.highQualityDepthHistogram);
  }
}

=== FILE: wrappers.dfy ===
/** Failure-compatible datatypes used to model the exceptions the modelled
    Java code throws: a `Failure` stands for a thrown exception that aborts
    the operation, a `Success` for a normal return.
 */
module Wrappers {

  /** A value that may be absent (a Java reference that may be null). */
  datatype Option<+T> = None | Some(value: T)

  /** Either a normal result or the error that aborted the computation. */
  datatype Result<+R, +E> = Success(value: R) | Failure(error: E) {

    predicate IsFailure() {
      Failure?
    }

    function PropagateFailure<U>(): Result<U, E>
      requires Failure?
    {
      Failure(error)
    }

    function Extract(): R
      requires Success?
    {
      value
    }
  }

  /** A check that either passes or fails with an error, carrying no value. */
  datatype Outcome<+E> = Pass | Fail(error: E)
}
